=== FILE: README.md ===
# pdf_to_excel — a Dafny model of the region and table bookkeeping

pdf_to_excel is a desktop tool. It loads PDF pages or images, lets the user
draw rectangular regions on a page, runs OCR on each region and collects the
texts in a table that is exported to Excel. The OCR engine, the PDF renderer
and the widgets are all external libraries. What remains is geometry and
bookkeeping, and that is what this project models, as pure functions over
immutable records:

- `GraphicsView` (widgets/graphics_view.py) is the Qt region editor:
  - drawing a region, with a strict minimum size;
  - moving a region by pointer deltas;
  - resizing by a corner handle;
  - deleting with renumbering;
  - exporting the regions to source-image coordinates with clamping.

  The handlers' shared fields become one explicit mode,
  `Idle | Drawing | Moving | Resizing`. Every region carries a generation id
  that is never reused, so a reference to a deleted region is detectably stale.
- `OcrThread` (core/ocr_thread.py) covers region validation, the truncated and
  clamped crop box, and the loop that pairs regions with field names. The crop
  and the OCR engine are parameters.
- `EditableTable` (widgets/editable_table.py) covers the initial table and the
  removal of the selected rows: distinct rows, highest first. It is proved equal
  to the reference definition `Keep`, "every row whose position was not
  selected, in order".
- `MainWindow` (ui/main_window.py) covers:
  - the image-index guard;
  - the `start_ocr` guard and field names;
  - `update_table`, where columns only grow, one padded row is appended and
    headers are regenerated only on growth;
  - header editing;
  - the data-gathering part of export and autosave.
- `BulkScanner` (ocr_related/gui_bluk_scanner.py) covers:
  - region capture from a canvas drag, and undo;
  - page navigation and the readiness check;
  - the per-image result row and the file-list labels;
  - the sheet layout of `save_results`.
- `FileNames` (ocr_related/gui_bluk_scanner.py, `generate_filename`) builds the
  Windows-safe result file name. The Unicode normaliser and the timestamp are
  parameters.
- `CaptureViewer` (ocr_related/ctrlc_ocr.py) covers the fit scale, the
  conversion of a selection back to source pixels, and the image list: labels,
  auto-selection, removal of the selected entries, and clearing.
- `Common` and `Geometry` hold shared vocabulary:
  - Python's `int()` on floats as truncation toward zero (`Trunc`);
  - `str()` on integers;
  - `Option`/`Result`;
  - points, Qt rectangles and `QRectF(p, q).normalized()` (`FromCorners`).

Coordinates are modelled as `real`, Python integers as `int`, and strings as
sequences of characters.

Where the repository's documentation and its code differ, the model follows the code:

- **Exported boxes are wider than the drawn rectangle.** `get_scaled_regions`
  reads `sceneBoundingRect()`. For a rectangle item with a pen of width 2, that
  extends one unit beyond the rectangle on every side. So a region drawn from
  (20,20) to (220,220) on an unscaled page exports as (19,19)-(221,221), not
  (20,20)-(220,220). `Item.SceneRect` adds this half pen width, and
  `GraphicsView.ExportPenMargin` works the example through.
- **Minimum sizes.** The minimum for drawing is "more than 5" scene units. The
  minimum for a corner resize is "more than 10", not 5.
- **Handle presses never reach the resize handlers.** `mousePressEvent`
  consumes a press on a handle without forwarding it (graphics_view.py:60-62
  and 66). The handle handlers are therefore not reached through the view as
  written. They are modelled as the handlers they are (`HandlePress`,
  `HandleMove`, `HandleRelease`) and as events of the gesture replay.
- **Rejected drags leave their preview.** When a drawn rectangle is too small,
  its dashed preview item stays in the scene, because line 111 runs only on
  commit. The model does not represent scene items other than the regions.
- **Units of a move.** A move shifts the region by the pointer delta in view
  coordinates (`event.pos()`), applied as a scene offset.

## Model

| member | source | states |
|---|---|---|
| Common.Trunc | core/ocr_thread.py:52 | Python `int()` on a float truncates toward zero: the result is the whole number between zero and the input that lies within one of it |
| Common.NatToString | ocr_related/gui_bluk_scanner.py:350 | `str(n)` is a non-empty numeral of digits with no leading zero |
| Common.IntToString | ocr_related/gui_bluk_scanner.py:271 | `str(i)` starts with `-` exactly for negative numbers, and its digits read back as `i`, or as `-i` after the sign |
| Common.NatToStringRoundTrip | ui/main_window.py:201 | reading back the numeral `str(n)` gives `n`, so numbering by `str` is faithful |
| Common.NatToStringInjective | ui/main_window.py:201 | distinct numbers give distinct numerals |
| Geometry.FromCorners | widgets/graphics_view.py:107 | `QRectF(p, q).normalized()` is the normalised rectangle with `p` and `q` as opposite corners, its width and height the absolute differences |
| Geometry.FromCornersSymmetric | widgets/graphics_view.py:107 | the rectangle spanned by a drag does not depend on which corner it started from |
| Geometry.FromCornersOfNormalized | widgets/graphics_view.py:248-268 | normalising a normalised rectangle's own corners gives it back |
| Geometry.SpannedByUnique | widgets/graphics_view.py:248-268 | two corners determine at most one normalised rectangle |
| GraphicsView.NewView | widgets/graphics_view.py:18-21 | a new editor has no page, no regions and no gesture in progress, and satisfies the editor invariant |
| GraphicsView.IndexOf | widgets/graphics_view.py:148 | `item in rect_items`: finds the first listed region with the id, or reports that no listed region has it |
| GraphicsView.Relabel | widgets/graphics_view.py:157-163 | the regions keep their order and contents and are renumbered 1..n |
| GraphicsView.LoadImage | widgets/graphics_view.py:24-36 | loading a page drops every region, so no earlier region is found afterwards; the page is shown at the scene origin |
| GraphicsView.Press | widgets/graphics_view.py:54-72 | a press on a region selects it for moving from the view position; a press on a handle changes nothing; any other press starts a drawing at the scene position; the regions are untouched |
| GraphicsView.Move | widgets/graphics_view.py:76-92 | a selected listed region is shifted by the step since the last event, which becomes the new reference, and nothing else changes; a stale selection is dropped and nothing moves; while drawing only the preview follows the pointer |
| GraphicsView.Release | widgets/graphics_view.py:97-124 | a drawing appends exactly one region, the normalised rectangle numbered with the new length, iff both sides exceed 5; otherwise the regions are unchanged; the gesture ends either way |
| GraphicsView.ResizeRect | widgets/graphics_view.py:248-268 | a corner drag keeps the diagonally opposite corner of the original rectangle and yields a normalised rectangle with the pointer as the other corner, even past the fixed corner |
| GraphicsView.ResizeAtOwnCorner | widgets/graphics_view.py:248-268 | dragging a handle to where it started gives back the original rectangle |
| GraphicsView.HandlePress | widgets/graphics_view.py:232-236 | a handle press records the region's current rectangle as the drag origin |
| GraphicsView.HandleMove | widgets/graphics_view.py:238-272 | the recomputed rectangle replaces the region's only when both sides exceed 10; otherwise, and with no resize in progress, nothing changes |
| GraphicsView.HandleRelease | widgets/graphics_view.py:274-276 | a handle release ends the resize and changes no region |
| GraphicsView.Delete | widgets/graphics_view.py:146-163 | an unlisted region is a no-op; a listed one is removed and the rest keep their order and are renumbered 1..n-1 |
| GraphicsView.DeleteKeepsValid | widgets/graphics_view.py:148-163 | deletion keeps the regions numbered 1..n with distinct ids, and the deleted region is no longer listed |
| GraphicsView.Clamp | widgets/graphics_view.py:191-194 | `max(0, min(v, high))` lies in [0, high] and is `v` when `v` is already there |
| GraphicsView.ClampMonotone | widgets/graphics_view.py:191-194 | clamping keeps the order of two coordinates when the upper bounds are ordered too |
| GraphicsView.ScaledMonotone | widgets/graphics_view.py:177-190 | taking a coordinate relative to the pixmap and scaling it by a non-negative factor keeps the order of two coordinates |
| GraphicsView.ExportRegion | widgets/graphics_view.py:175-194 | an exported tuple has x1 in [0, w-1], y1 in [0, h-1], x2 in [0, w] and y2 in [0, h], and its corners stay ordered |
| GraphicsView.ExportUnclamped | widgets/graphics_view.py:177-194 | each coordinate that needs no clamping is exported as the exact scaled coordinate |
| GraphicsView.ExportPenMargin | widgets/graphics_view.py:175-194 | on an unscaled 1000x1000 page the region (20,20)-(220,220) exports as (19,19)-(221,221), one pen half-width out on every side |
| GraphicsView.ScaledRegions | widgets/graphics_view.py:167-197 | no loaded or an empty page gives no regions; otherwise one bounded, ordered tuple per region in list order |
| GraphicsView.StepPreservesValid | widgets/graphics_view.py:97-163 | every handler keeps the regions numbered 1..n, distinct and above the drawing minimum |
| GraphicsView.ReplayPreservesValid | widgets/graphics_view.py:54-276 | any sequence of gestures keeps the editor invariant |
| GraphicsView.MoveTotalDisplacement | widgets/graphics_view.py:79-87 | a drag through several pointer positions displaces the region by the last position minus the first reference, and moves nothing else |
| GraphicsView.MoveThereAndBack | widgets/graphics_view.py:82-84 | moving away and back to the reference point restores every region |
| GraphicsView.MoveStale | widgets/graphics_view.py:79-86 | after the selected region is deleted, a move clears the selection and moves nothing |
| OcrThread.ValidateRegion | core/ocr_thread.py:46-48 | a region is valid iff it is at least 5 wide and 5 high |
| OcrThread.TruncRegion | core/ocr_thread.py:52 | each coordinate is truncated toward zero before clamping |
| OcrThread.ClampBox | core/ocr_thread.py:54-57 | for an image of size at least 1, the box has 0 <= x0 <= w-1 and x0+1 <= x1 <= w, likewise for y, so it is never empty; an in-bounds box is unchanged |
| OcrThread.ValidRegionCropsExactly | core/ocr_thread.py:50-58 | a valid region inside the image is cropped at exactly its floored coordinates and stays at least 5 pixels each way |
| OcrThread.Run | core/ocr_thread.py:19-42 | min(#regions, #names) results in order, each with its field name; invalid regions get `无效区域` and are not cropped; valid ones are cropped at the clamped box and give `裁剪失败` or the recognised text |
| EditableTable.NewTable | widgets/editable_table.py:5-10 | a new table has no rows and one column headed `默认字段` |
| EditableTable.SelectedRows | widgets/editable_table.py:21 | `set(index.row() for index in selectedIndexes())` is exactly the set of the selected cells' rows |
| EditableTable.Descending | widgets/editable_table.py:21 | `sorted(rows, reverse=True)` lists each selected row once, strictly decreasing |
| EditableTable.RemoveDescendingIsKeep | widgets/editable_table.py:22-23 | removing distinct rows from the highest down removes exactly those rows and keeps the rest in order |
| EditableTable.KeepLength | widgets/editable_table.py:19-23 | removing a set of existing rows shortens the table by its size |
| EditableTable.RemoveSelectedRows | widgets/editable_table.py:19-23 | exactly the distinct selected rows are removed, once each; the others keep their order; the row count drops by their number; headers are untouched; an empty selection changes nothing |
| EditableTable.RemoveSelectedIsKeep | widgets/editable_table.py:21-23 | the descending removal order deletes exactly the selected rows |
| MainWindow.NewWindow | ui/main_window.py:84-89 | the window starts with no image, regions or field names, a new table and an empty editor |
| MainWindow.FieldNames | ui/main_window.py:201 | the generated field names are `区域 1`..`区域 n`, one per region |
| MainWindow.FieldNamesDistinct | ui/main_window.py:201 | the generated field names never repeat |
| MainWindow.LoadImage | ui/main_window.py:183-191 | a valid row index selects that page and shows it with no regions; any other index changes nothing |
| MainWindow.StartAfterLoadWarns | ui/main_window.py:183-199 | loading a page drops every region, so starting recognition right after it only warns |
| MainWindow.StartOcr | ui/main_window.py:195-214 | without an image or a region it only warns; otherwise the field names become `区域 1..n`, one per region, and the job gets the exported regions, the image and those names |
| MainWindow.StartedJobNamesEveryRegion | ui/main_window.py:201-214 | with the current page shown, the job has one name per region, so every region is recognised |
| MainWindow.Pad | ui/main_window.py:226-227 | growing the column count adds item-less cells at the end and keeps the existing ones |
| MainWindow.UpdateTable | ui/main_window.py:219-245 | columns become max(old, #results) and never shrink; exactly one row is appended, with the texts in order and then `""`; earlier rows keep their cells; headers and field names are regenerated only on growth |
| MainWindow.EditHeader | ui/main_window.py:136-143 | a confirmed non-empty name replaces only that header, and the field name only when one exists at that position; otherwise nothing changes |
| MainWindow.EditHeaderKeepsCells | ui/main_window.py:136-143 | a rename puts the new name in that header, keeps the column count and leaves every cell reading the same |
| MainWindow.ExportTable | ui/main_window.py:291-300 | the export has the headers and exactly rows x columns cell texts, an item-less cell reading as `""` |
| MainWindow.AutoSave | ui/main_window.py:179-181 | an export happens iff the table has rows, and it gathers every cell |
| MainWindow.UpdateKeepsEarlierCells | ui/main_window.py:229-239 | after a recognition run every earlier cell still exports the same text |
| BulkScanner.Sort2 | ocr_related/gui_bluk_scanner.py:267-268 | `sorted([a, b])` is ordered and holds the same two values |
| BulkScanner.CaptureBox | ocr_related/gui_bluk_scanner.py:257-268 | the stored box holds the truncated scaled drag corners, sorted per axis so that x0 <= x1 and y0 <= y1 |
| BulkScanner.SaveRectangle | ocr_related/gui_bluk_scanner.py:256-271 | exactly one box, the captured one, is appended with no size check, together with the list entry `区域n: (x0, y0) - (x1, y1)` numbered with the new count; nothing else changes |
| BulkScanner.AddRegionKeepsInSync | ocr_related/gui_bluk_scanner.py:270-271 | appending a box with the entry `区域n: (x0, y0) - (x1, y1)` keeps the list widget showing exactly the regions, numbered 1..n |
| BulkScanner.SaveKeepsInSync | ocr_related/gui_bluk_scanner.py:256-271 | a capture keeps the list widget in step with the regions |
| BulkScanner.UndoRegion | ocr_related/gui_bluk_scanner.py:227-231 | only the last region and list entry are removed; with no regions nothing changes; the list stays in sync |
| BulkScanner.UndoAfterSave | ocr_related/gui_bluk_scanner.py:227-271 | undo right after a capture restores the scanner exactly |
| BulkScanner.ChangeImage | ocr_related/gui_bluk_scanner.py:234-242 | the index moves by delta only when the new index is a page; otherwise nothing changes |
| BulkScanner.ChangeImageStaysInRange | ocr_related/gui_bluk_scanner.py:239-241 | navigation never leaves the page list |
| BulkScanner.ValidateReady | ocr_related/gui_bluk_scanner.py:304-312 | ready iff there are pages and regions; the missing files are reported first |
| BulkScanner.ReadinessAfterCapture | ocr_related/gui_bluk_scanner.py:227-312 | after a capture the regions are never what is missing, and undoing it gives back the earlier readiness |
| BulkScanner.ProcessSingleImage | ocr_related/gui_bluk_scanner.py:314-330 | fails before any region, even with none, exactly when the page is not a 3- or 4-channel array (a grayscale, palette, bilevel or `LA` file: `Image.open` at lines 43-44 does not convert it), since `COLOR_RGB2BGR` rejects it; otherwise, when every cut-out holds pixels, the row has one recognised text per region, in region order, and otherwise it fails exactly at the first region whose numpy slice `img_cv[y0:y1, x0:x1]` is empty, since `preprocess_image` runs outside the `try` |
| BulkScanner.SliceBound | ocr_related/gui_bluk_scanner.py:320 | a slice bound lies in `0..n`, and an in-range bound is kept |
| BulkScanner.SliceLength | ocr_related/gui_bluk_scanner.py:320 | a slice takes at most `n` elements, `hi - lo` of them for in-range ordered bounds, and none when the bounds are equal |
| BulkScanner.ClickIsEmptyCrop | ocr_related/gui_bluk_scanner.py:256-321 | a click without a drag is saved as a region whose cut-out is empty, so processing fails on it |
| BulkScanner.InsideCropEmptyIff | ocr_related/gui_bluk_scanner.py:320-321 | a box inside the image has an empty cut-out exactly when it has no width or no height |
| BulkScanner.PastRightEdgeIsEmptyCrop | ocr_related/gui_bluk_scanner.py:320-321 | a box at or past the right edge of the image has an empty cut-out |
| BulkScanner.UpdateFileList | ocr_related/gui_bluk_scanner.py:162-170 | one label per entry: the file name, followed by ` (第n页)` exactly when the page is truthy |
| BulkScanner.RegionHeaders | ocr_related/gui_bluk_scanner.py:408 | the region headers are `区域1`..`区域n` |
| BulkScanner.OutputPath | ocr_related/gui_bluk_scanner.py:398-399 | the output path ends with `.xlsx` in some letter case; it is the input iff the input already did, and the input followed by `.xlsx` otherwise |
| BulkScanner.OutputPathKeepsDirectory | ocr_related/gui_bluk_scanner.py:398-402 | appending `.xlsx` neither adds nor removes a folder part |
| BulkScanner.Rows | ocr_related/gui_bluk_scanner.py:410-418 | one row per data row, its file cells followed by its texts |
| BulkScanner.SaveResults | ocr_related/gui_bluk_scanner.py:390-444 | paths over 200 characters are refused with `文件路径超过Windows系统限制`; a path with no folder part fails when its folder is created; otherwise the writer gets the absolute form of the path with `.xlsx` appended iff it did not end with it in any case, the three file columns then one header per region, and each row as its file cells then its texts; rows match the header width when every row has one text per region |
| BulkScanner.RowsWithoutInfoUsePlaceholders | ocr_related/gui_bluk_scanner.py:411-416 | rows beyond the file entries carry `未知文件`, `未知路径` and `N/A` |
| BulkScanner.JoinedPathIsWritten | ocr_related/gui_bluk_scanner.py:273-287 | the path `process_all` builds by joining a file name onto the output folder has a folder part, so when it is short enough the sheet is written |
| FileNames.StripExtension | ocr_related/gui_bluk_scanner.py:337 | `splitext(...)[0]` is a prefix, and a cut is made only at the last dot of the last path component when a non-dot precedes it |
| FileNames.StripForbidden | ocr_related/gui_bluk_scanner.py:340 | removing characters never makes the name longer |
| FileNames.StripForbiddenChar | ocr_related/gui_bluk_scanner.py:340 | one character is removed when it is forbidden and kept otherwise |
| FileNames.StripForbiddenConcat | ocr_related/gui_bluk_scanner.py:340 | the removal works piecewise, so the kept characters stay in their order |
| FileNames.StripForbiddenCounts | ocr_related/gui_bluk_scanner.py:340 | every allowed character is kept as often as it occurs, and no forbidden one is left |
| FileNames.StripForbiddenChars | ocr_related/gui_bluk_scanner.py:340 | a character appears in the result exactly when it appears in the input and is not forbidden |
| FileNames.StripForbiddenIdentity | ocr_related/gui_bluk_scanner.py:340 | a name without forbidden characters is unchanged |
| FileNames.Collapse | ocr_related/gui_bluk_scanner.py:346 | replacing runs by one `_` never makes the name longer |
| FileNames.CollapseNoSpace | ocr_related/gui_bluk_scanner.py:346 | no whitespace is left |
| FileNames.CollapseChars | ocr_related/gui_bluk_scanner.py:346 | the only character brought in is `_` |
| FileNames.CollapseNoSpaceIdentity | ocr_related/gui_bluk_scanner.py:346 | a name without whitespace is unchanged |
| FileNames.CollapseRun | ocr_related/gui_bluk_scanner.py:346 | a whitespace run is replaced by one `_` |
| FileNames.CollapseNonSpace | ocr_related/gui_bluk_scanner.py:346 | a non-space character is copied in place in front of the rest |
| FileNames.CollapseEmpty | ocr_related/gui_bluk_scanner.py:346 | the empty name stays empty; with the two lemmas before it, this fixes the substitution completely |
| FileNames.CollapseSplit | ocr_related/gui_bluk_scanner.py:346 | after a non-space character the two sides are substituted independently, since runs never merge across it |
| FileNames.CollapseRunInPlace | ocr_related/gui_bluk_scanner.py:346 | a whitespace run between non-space characters becomes exactly one `_` in its place, and both sides are substituted on their own |
| FileNames.RStrip | ocr_related/gui_bluk_scanner.py:354 | `rstrip` keeps the longest prefix that does not end in a stripped character, and removes only such characters |
| FileNames.PageTag | ocr_related/gui_bluk_scanner.py:349-350 | `_p{page}` is added exactly when the page is truthy |
| FileNames.PageTagClean | ocr_related/gui_bluk_scanner.py:349-350 | the page tag holds no forbidden or whitespace character |
| FileNames.PageTagEndsInDigit | ocr_related/gui_bluk_scanner.py:350-354 | a present tag ends in a digit, so trimming never eats into it |
| FileNames.CutStem | ocr_related/gui_bluk_scanner.py:353-354 | the stem is a prefix of at most 50 characters not ending in `_` or `.`, all of the name when it fits and ends clean, and no clean character within the first 50 is lost |
| FileNames.Finish | ocr_related/gui_bluk_scanner.py:348-358 | the result is a stem of at most 50 characters, a prefix of the tagged name with no trailing `_` or `.`, followed by `_` and the timestamp; the tag survives when the tagged name fits |
| FileNames.Stamp | ocr_related/gui_bluk_scanner.py:358 | the stem can be read back from `{stem}_{timestamp}` |
| FileNames.Sanitize | ocr_related/gui_bluk_scanner.py:339-346 | with normalisation first, the cleaned name holds no forbidden and no whitespace character, whatever the normaliser |
| FileNames.CleanName | ocr_related/gui_bluk_scanner.py:337-346 | the cleaned name without its extension holds only clean characters |
| FileNames.GenerateFilenameSafe | ocr_related/gui_bluk_scanner.py:335-358 | the corrected file name is a stem of at most 50 clean characters with no trailing `_` or `.`, then `_` and the timestamp |
| FileNames.GenerateFilenameKeepsTag | ocr_related/gui_bluk_scanner.py:348-354 | the stem comes from the cleaned name and the page tag, and includes the tag whenever the tagged name fits; without a truthy page no tag is added |
| FileNames.FinishKeepsClean | ocr_related/gui_bluk_scanner.py:348-358 | tagging, cutting and trimming keep a clean name clean |
| FileNames.FinishKeepsPosition | ocr_related/gui_bluk_scanner.py:353-354 | a character within the first 50 that is not `_` or `.` survives at its position |
| FileNames.FullwidthFold | ocr_related/gui_bluk_scanner.py:343 | the fragment of NFKC used for the counterexample keeps the length |
| FileNames.AsWrittenCore | ocr_related/gui_bluk_scanner.py:337-346 | as written, steps 1-3 turn `发票？.pdf` into `发票?` |
| FileNames.InvoiceStem | ocr_related/gui_bluk_scanner.py:337 | `splitext` of `发票？.pdf` leaves `发票？` |
| FileNames.InvoiceFold | ocr_related/gui_bluk_scanner.py:343 | the full-width fold, a fragment of NFKC, turns `发票？` into `发票?` |
| FileNames.AsWrittenKeepsForbidden | ocr_related/gui_bluk_scanner.py:340-343 | as written, the file name for `发票？.pdf` contains `?` |
| CaptureViewer.NewViewer | ocr_related/ctrlc_ocr.py:26-33 | the viewer starts with no images or shown image, index -1 and scale 1.0 |
| CaptureViewer.DisplayScale | ocr_related/ctrlc_ocr.py:150-153 | the scale is `min(cw/w, ch/h, 1.0)`: never above 1, never above either ratio, one of the three, and positive on a positive canvas |
| CaptureViewer.DisplayedSizeFits | ocr_related/ctrlc_ocr.py:155 | the displayed size `int(n*scale)` never exceeds the image or the canvas |
| CaptureViewer.Basename | ocr_related/ctrlc_ocr.py:124 | `basename` is the suffix after the last separator: it holds no separator and the character before it is one; a path without separators is its own basename |
| CaptureViewer.BasenameOfJoin | ocr_related/ctrlc_ocr.py:124 | the basename of a folder joined by `\\` or `/` with a separator-free file name is that file name, whatever the folder holds |
| CaptureViewer.ShowImage | ocr_related/ctrlc_ocr.py:143-162 | the entry becomes the shown one, with the fit scale and a status naming its file |
| CaptureViewer.AddImage | ocr_related/ctrlc_ocr.py:111-118 | one entry is appended at the end, the page defaulting to 1 |
| CaptureViewer.UpdateImageList | ocr_related/ctrlc_ocr.py:121-135 | one label per entry, the basename followed by ` (Page n)` exactly when the page is above 1; a non-empty list selects and shows entry 0 with status `已加载：<basename>`, changing nothing else; an empty one has no selection and clears the shown image |
| CaptureViewer.AddImageLabels | ocr_related/ctrlc_ocr.py:111-127 | after an addition the rebuilt list ends with the new entry's label and keeps the labels of the earlier entries |
| CaptureViewer.OnRelease | ocr_related/ctrlc_ocr.py:196-216 | without a shown image only the status changes; otherwise a box is cropped iff it is strictly non-empty on both axes, and it is the converted selection |
| CaptureViewer.SelectionBox | ocr_related/ctrlc_ocr.py:206-209 | the corners are ordered with min/max, divided by the scale and truncated, so x0 <= x1 and y0 <= y1 |
| CaptureViewer.SelectionSymmetric | ocr_related/ctrlc_ocr.py:206-209 | dragging from either corner selects the same box |
| CaptureViewer.SelectionAtFullScale | ocr_related/ctrlc_ocr.py:206-209 | at scale 1, whole-pixel corners select exactly the normalised box they span |
| CaptureViewer.Reverse | ocr_related/ctrlc_ocr.py:261 | `reversed(selection)` lists the selection back to front |
| CaptureViewer.ReverseDeleteIsKeep | ocr_related/ctrlc_ocr.py:261-262 | deleting the selection in reverse order removes exactly the selected entries and keeps the rest in order |
| CaptureViewer.SelectionSize | ocr_related/ctrlc_ocr.py:254-262 | a selection of increasing positions names as many distinct entries as it has members |
| CaptureViewer.RemoveSelected | ocr_related/ctrlc_ocr.py:250-273 | with nothing, no selection or no confirmation nothing changes; otherwise exactly the selected entries go, every remaining label is rebuilt as in `update_image_list`, and entry 0 is shown at index 0 with status `已加载：<basename>` or, with none left, the list has no selection and the image is cleared with `已清空所有文件` |
| CaptureViewer.ClearAll | ocr_related/ctrlc_ocr.py:275-284 | with entries and confirmation all are dropped, the list has no selection, nothing is shown and the status is `已清空所有文件`; otherwise nothing changes |
| CaptureViewer.ClearAllSettles | ocr_related/ctrlc_ocr.py:250-284 | a cleared viewer has a valid (empty) selection, and a second clear or a removal changes nothing |

## Findings

| source | as written | input that shows it | evidently intended | confidence | as-written member | corrected member |
|---|---|---|---|---|---|---|
| ocr_related/gui_bluk_scanner.py:340-343 | forbidden characters are removed before NFKC normalisation, and NFKC maps full-width `？` (U+FF1F) to `?` | a PDF named `发票？.pdf` gives a file name containing `?`, which Windows forbids | normalise first, then remove the forbidden characters, so that no forbidden character remains | not executed | FileNames.AsWrittenKeepsForbidden | FileNames.GenerateFilenameSafe |

`FileNames.GenerateFilenameAsWritten` keeps the source's order of steps, and
`FileNames.GenerateFilename` applies the correction.

## Left out

- Widgets, scene items, rendering, layouts, dialogs, menus, the clipboard, handle ellipse positions and the placement of region number labels are left out: they are display, and the number itself is a field of `Item`.
- The PaddleOCR calls, pdf2image, PIL pixel crop and resize, and the cv2 preprocessing are foreign calls. They are parameters: `recognize` and `crop` in `OcrThread.Run`, and `recognize` in `BulkScanner.ProcessSingleImage`, which stands for preprocessing and OCR of a non-empty cut-out. Of the whole-page `COLOR_RGB2BGR` conversion only its channel check (`Raster.channels`) is modelled; the pixel values it reorders are opaque. The spreadsheet writers (pandas, openpyxl) are not modelled; `save_results` and `export_table` stop at what they hand to them.
- Threads and signals are left out: `QThread`, `pyqtSignal`, `threading.Thread` and `master.after`. Updates are modelled sequentially. The exception paths of `run` and `export_table` that only report an error are left out too.
- File-system code is left out: `open_files`, `add_file_item`, `process_files`, `create_output_folder`, `clean_old_files` and move_file/move_file.py. So are the `process_all` and `process_current` orchestration (folders, message boxes) and `handle_error`, which is a message plus an autosave.
- The clock and Unicode NFKC are parameters. `FileNames.FullwidthFold` is a faithful fragment of NFKC, used only for the counterexample.
- `os.path.basename` and `splitext` are modelled on `\` and `/` separators. Drive prefixes such as `C:name` are not treated specially.
- BulkScanner.SaveResults: `.lower()` is modelled on ASCII letters only. No other character lowers to a letter of `.xlsx`, so the test is the same.
- BulkScanner.SaveResults: `os.path.abspath` depends on the working directory and is a parameter, so nothing is promised about the written path beyond being its image. The text of the `makedirs` error is the operating system's and is not modelled. A drive-only folder part such as `C:` is not treated specially.
- BulkScanner.SaveResults: `pd.DataFrame(rows, columns=headers)` pads rows shorter than the longest one with empty cells, and raises only when the longest row's width differs from the header count. The model keeps short rows unpadded and does not model that raise; it proves that the rows match the headers when every row has one text per region, as `process_single_image` produces them.
- The scanner's `show_image` redraw and the computation of its `scale_factor` are left out (display). The scale is a field of `BulkScanner.Scanner`.
- BulkScanner.UndoRegion: when the region list and the region widget are out of sync, Tk deletes the last widget line or nothing. The model drops the last entry when there is one, and proves that synchronisation is kept.
- BulkScanner.ProcessSingleImage: the exception from a page that is not 3- or 4-channel, or at an empty cut-out, propagates out of `process_all` and `process_current` into Tk, which is not modelled. No result is saved. Recognition of the earlier regions has no observable effect and is not modelled either.
- The dead `resize_data` path (widgets/graphics_view.py:301-339) is left out, because `_resize_*` is never bound.
- The nested `MainWindow.EditableTable` class (ui/main_window.py:108-133) is left out because the imported widget shadows it. `_init_table_columns` and `_edit_header_directly` are left out because they are unused.
- A press whose scene position is exactly (0, 0) is left out. `QPointF(0, 0)` is falsy in PyQt, so the source then ignores the drag that follows. The model treats that start point like any other.
- A drag that straddles a page load is left out. `GraphicsView.LoadImage` resets the gesture to idle.
- The scene preview of a rejected drag is not represented.
- GraphicsView.ExportRegion: requires a non-empty pixmap. The source skips such a page before dividing (widgets/graphics_view.py:169, 185-186), and `ScaledRegions` models that skip.
- CaptureViewer.DisplayScale: requires a positive image size. With a zero-size image the source divides by zero.
- CaptureViewer.OnRelease: requires a positive scale when an image is shown. With a zero scale (a canvas of width 0) the source raises ZeroDivisionError in the callback. The crop exception path (lines 217-218) is not modelled.
- CaptureViewer.UpdateImageList: requires the first entry to have a positive size, because `show_image` divides by it.
- CaptureViewer.RemoveSelected: requires every entry to have a positive size, where the source needs this only of the entry shown afterwards.
- `on_list_select`, `on_canvas_resize`, `on_press`, `on_drag`, `async_ocr`, `update_ocr_result` and `copy_text` in ocr_related/ctrlc_ocr.py are display, threading or clipboard handlers and are left out. `on_file_select`, `start_rectangle` and `draw_rectangle` in the batch scanner are left out for the same reason.
- MainWindow.LoadImage: the conversion to RGB is not modelled, because pixel formats are opaque.

=== FILE: bulk_scanner.dfy ===
/** The bookkeeping of the Tk batch scanner, ocr_related/gui_bluk_scanner.py:
    capturing a region from a canvas drag, undoing the last region, page
    navigation, the readiness check, the per-image result row, the file
    list labels and the sheet layout written by `save_results`. The regions
    are kept in source-image pixels and apply to every page. */
module BulkScanner {
  import opened Common
  import opened Geometry

  /** One entry of `file_info`; `page` is absent for a plain image file. */
  datatype FileInfo = FileInfo(filename: string, filepath: string, page: Option<nat>)

  /** Python truthiness of the page entry: present and not zero. */
  predicate PageTruthy(p: Option<nat>) {
    p.Some? && p.value != 0
  }

  /** A canvas event position (Tk reports integers). */
  datatype CanvasPoint = CanvasPoint(x: int, y: int)

  datatype Scanner = Scanner(
    images: seq<Raster>,
    fileInfo: seq<FileInfo>,
    index: int,
    regions: seq<IntBox>,
    regionList: seq<string>,
    scaleX: real,
    scaleY: real)

  /** The line shown in the region list for region number `n`. */
  function RegionEntry(n: nat, b: IntBox): string {
    "区域" + NatToString(n) + ": (" + IntToString(b.x0) + ", " + IntToString(b.y0) + ") - ("
      + IntToString(b.x1) + ", " + IntToString(b.y1) + ")"
  }

  /** The region list widget shows exactly the stored regions, numbered 1..n. */
  predicate ListInSync(s: Scanner) {
    && |s.regionList| == |s.regions|
    && forall i :: 0 <= i < |s.regions| ==> s.regionList[i] == RegionEntry(i + 1, s.regions[i])
  }

  /** `sorted([a, b])`. */
  function Sort2(a: int, b: int): (r: (int, int))
    ensures r.0 <= r.1
    ensures multiset{r.0, r.1} == multiset{a, b}
  {
    if b < a then (b, a) else (a, b)
  }

  /** The box `save_rectangle` stores: both corners scaled to source
      pixels and truncated, each axis sorted. */
  function CaptureBox(s: Scanner, start: CanvasPoint, end: CanvasPoint): (b: IntBox)
    ensures b.x0 <= b.x1 && b.y0 <= b.y1
    ensures multiset{b.x0, b.x1} == multiset{Trunc(start.x as real * s.scaleX), Trunc(end.x as real * s.scaleX)}
    ensures multiset{b.y0, b.y1} == multiset{Trunc(start.y as real * s.scaleY), Trunc(end.y as real * s.scaleY)}
  {
    var (x0, x1) := Sort2(Trunc(start.x as real * s.scaleX), Trunc(end.x as real * s.scaleX));
    var (y0, y1) := Sort2(Trunc(start.y as real * s.scaleY), Trunc(end.y as real * s.scaleY));
    IntBox(x0, y0, x1, y1)
  }

  /** Appends a box and its numbered list entry. */
  function AddRegion(s: Scanner, b: IntBox): Scanner {
    s.(regions := s.regions + [b], regionList := s.regionList + [RegionEntry(|s.regions| + 1, b)])
  }

  /** `save_rectangle`: the captured box is appended together with its list
      entry. There is no minimum size: every release adds one. */
  function SaveRectangle(s: Scanner, start: CanvasPoint, end: CanvasPoint): (r: Scanner)
    ensures r.regions == s.regions + [CaptureBox(s, start, end)]
    ensures r.regionList == s.regionList + [RegionEntry(|s.regions| + 1, CaptureBox(s, start, end))]
    ensures r == s.(regions := r.regions, regionList := r.regionList)
  {
    AddRegion(s, CaptureBox(s, start, end))
  }

  /** Appending a box keeps the region list widget in step with the regions. */
  lemma AddRegionKeepsInSync(s: Scanner, b: IntBox)
    requires ListInSync(s)
    ensures ListInSync(AddRegion(s, b))
  {
    var r := AddRegion(s, b);
    var n := |s.regions|;
    assert r.regions[n] == b && r.regionList[n] == RegionEntry(n + 1, b);
    forall i | 0 <= i < |r.regions|
      ensures r.regionList[i] == RegionEntry(i + 1, r.regions[i])
    {
      if i < n {
        assert r.regionList[i] == s.regionList[i] && r.regions[i] == s.regions[i];
      }
    }
  }

  /** A capture keeps the region list widget in step with the regions. */
  lemma SaveKeepsInSync(s: Scanner, start: CanvasPoint, end: CanvasPoint)
    requires ListInSync(s)
    ensures ListInSync(SaveRectangle(s, start, end))
  {
    AddRegionKeepsInSync(s, CaptureBox(s, start, end));
  }

  /** `undo_region`: drops the last region and its list entry; with no
      region it does nothing. */
  function UndoRegion(s: Scanner): (r: Scanner)
    ensures |s.regions| == 0 ==> r == s
    ensures |s.regions| > 0 ==> r.regions == s.regions[..|s.regions| - 1]
    ensures |s.regions| > 0 && |s.regionList| > 0 ==> r.regionList == s.regionList[..|s.regionList| - 1]
    ensures r == s.(regions := r.regions, regionList := r.regionList)
    ensures ListInSync(s) ==> ListInSync(r)
  {
    if |s.regions| > 0 then
      s.(regions := s.regions[..|s.regions| - 1],
         regionList := if |s.regionList| > 0 then s.regionList[..|s.regionList| - 1] else s.regionList)
    else s
  }

  /** Undo takes back exactly the region that the last capture added. */
  lemma UndoAfterSave(s: Scanner, start: CanvasPoint, end: CanvasPoint)
    ensures UndoRegion(SaveRectangle(s, start, end)) == s
  {
    var r := AddRegion(s, CaptureBox(s, start, end));
    assert r.regions[..|r.regions| - 1] == s.regions;
    assert r.regionList[..|r.regionList| - 1] == s.regionList;
  }

  /** `change_image`: moves to the neighbouring page only when it exists;
      regions are kept. */
  function ChangeImage(s: Scanner, delta: int): (r: Scanner)
    ensures 0 <= s.index + delta < |s.images| ==> r == s.(index := s.index + delta)
    ensures !(0 <= s.index + delta < |s.images|) ==> r == s
  {
    if |s.images| == 0 then s
    else if 0 <= s.index + delta < |s.images| then s.(index := s.index + delta)
    else s
  }

  /** Navigation never leaves the page list once inside it. */
  lemma ChangeImageStaysInRange(s: Scanner, delta: int)
    requires 0 <= s.index < |s.images|
    ensures 0 <= ChangeImage(s, delta).index < |s.images|
  {
  }

  datatype Readiness = Ready | NoFiles | NoRegions

  /** `validate_ready`: files are checked first, then regions. */
  function ValidateReady(s: Scanner): (r: Readiness)
    ensures r == Ready <==> |s.images| > 0 && |s.regions| > 0
    ensures r == NoFiles <==> |s.images| == 0
  {
    if |s.images| == 0 then NoFiles
    else if |s.regions| == 0 then NoRegions
    else Ready
  }

  /** A capture always leaves a region to recognise, and undoing it gives
      back the readiness there was before. */
  lemma ReadinessAfterCapture(s: Scanner, start: CanvasPoint, end: CanvasPoint)
    ensures ValidateReady(SaveRectangle(s, start, end)) != NoRegions
    ensures ValidateReady(UndoRegion(SaveRectangle(s, start, end))) == ValidateReady(s)
  {
    UndoAfterSave(s, start, end);
  }

  /** One bound of a numpy slice over an axis of `n` elements: a negative
      bound counts from the end, and both are clipped to `0..n`. */
  function SliceBound(i: int, n: nat): (b: nat)
    ensures b <= n
    ensures 0 <= i <= n ==> b == i
  {
    if i < 0 then (if i + n < 0 then 0 else i + n)
    else if i > n then n else i
  }

  /** The number of elements numpy's `a[lo:hi]` takes from an axis of `n`. */
  function SliceLength(lo: int, hi: int, n: nat): (len: nat)
    ensures len <= n
    ensures 0 <= lo <= hi <= n ==> len == hi - lo
    ensures lo == hi ==> len == 0
  {
    var a, b := SliceBound(lo, n), SliceBound(hi, n);
    if a < b then b - a else 0
  }

  /** `img_cv[y0:y1, x0:x1]` holds no pixel: `preprocess_image` then fails
      in `cv2.cvtColor`, outside the `try` around the OCR call. */
  predicate EmptyCrop(image: Raster, b: IntBox) {
    SliceLength(b.y0, b.y1, image.height) == 0 || SliceLength(b.x0, b.x1, image.width) == 0
  }

  /** `cv2.cvtColor(..., COLOR_RGB2BGR)` accepts only 3- and 4-channel
      arrays; the page is converted once, before any region is cut out. */
  predicate ConvertsToBgr(image: Raster) {
    image.channels == 3 || image.channels == 4
  }

  /** What `process_single_image` ends with: the row of texts, the exception
      the whole-page colour conversion raises for an image that is not
      3- or 4-channel, or the exception raised at the first region whose
      cut-out is empty. */
  datatype Processed = Row(texts: seq<string>) | BadMode | CropEmpty(region: nat)

  /** `process_single_image`: the page must convert to BGR, whatever the
      regions; then one recognised text per region, in region order, when
      every cut-out holds pixels; otherwise it stops at the first empty
      cut-out. The preprocessing and OCR of a non-empty cut-out, including
      the `try` that turns an OCR exception into text, are `recognize`. */
  method ProcessSingleImage(regions: seq<IntBox>, image: Raster, recognize: (Raster, IntBox) -> string)
    returns (r: Processed)
    ensures r.BadMode? <==> !ConvertsToBgr(image)
    ensures r.Row? <==> ConvertsToBgr(image) && forall i :: 0 <= i < |regions| ==> !EmptyCrop(image, regions[i])
    ensures r.Row? ==> |r.texts| == |regions|
    ensures r.Row? ==> forall i :: 0 <= i < |r.texts| ==> r.texts[i] == recognize(image, regions[i])
    ensures r.CropEmpty? ==> && ConvertsToBgr(image)
                             && r.region < |regions| && EmptyCrop(image, regions[r.region])
                             && forall i :: 0 <= i < r.region ==> !EmptyCrop(image, regions[i])
  {
    if !ConvertsToBgr(image) {
      return BadMode;
    }
    var row := [];
    var i := 0;
    while i < |regions|
      invariant 0 <= i <= |regions| && |row| == i
      invariant forall j :: 0 <= j < i ==> !EmptyCrop(image, regions[j])
      invariant forall j :: 0 <= j < i ==> row[j] == recognize(image, regions[j])
    {
      if EmptyCrop(image, regions[i]) {
        return CropEmpty(i);
      }
      row := row + [recognize(image, regions[i])];
      i := i + 1;
    }
    r := Row(row);
  }

  /** A click without a drag is still saved as a region, and its cut-out is
      empty, so every later `process_single_image` fails on it. */
  lemma ClickIsEmptyCrop(s: Scanner, p: CanvasPoint, image: Raster)
    ensures EmptyCrop(image, CaptureBox(s, p, p))
  {
    var b := CaptureBox(s, p, p);
    assert b.x0 == b.x1;
  }

  /** For a box inside the image the cut-out is empty exactly when the box
      has no width or no height. */
  lemma InsideCropEmptyIff(image: Raster, b: IntBox)
    requires 0 <= b.x0 <= b.x1 <= image.width && 0 <= b.y0 <= b.y1 <= image.height
    ensures EmptyCrop(image, b) <==> b.x0 == b.x1 || b.y0 == b.y1
  {
  }

  /** A box starting at or past the right edge of the image, as one drawn
      in the canvas area beyond the page, has an empty cut-out. */
  lemma PastRightEdgeIsEmptyCrop(image: Raster, b: IntBox)
    requires 0 <= image.width <= b.x0 <= b.x1
    ensures EmptyCrop(image, b)
  {
  }

  /** The label `update_file_list` shows for one file entry. */
  function FileLabel(info: FileInfo): string {
    if PageTruthy(info.page) then info.filename + " (第" + NatToString(info.page.value) + "页)"
    else info.filename
  }

  /** `update_file_list`: one label per entry, in order: the file name, with
      the page number appended exactly when the page is truthy. */
  function UpdateFileList(infos: seq<FileInfo>): (labels: seq<string>)
    ensures |labels| == |infos|
    ensures forall i :: 0 <= i < |infos| ==>
              |infos[i].filename| <= |labels[i]| && labels[i][..|infos[i].filename|] == infos[i].filename
    ensures forall i :: 0 <= i < |infos| ==> (PageTruthy(infos[i].page) <==> |labels[i]| > |infos[i].filename|)
    ensures forall i :: 0 <= i < |infos| && PageTruthy(infos[i].page) ==>
              labels[i][|infos[i].filename|..] == " (第" + NatToString(infos[i].page.value) + "页)"
  {
    seq(|infos|, i requires 0 <= i < |infos| => FileLabel(infos[i]))
  }

  /** The longest output path `save_results` accepts. */
  const MaxPathLength: nat := 200
  const PathTooLongMessage: string := "文件路径超过Windows系统限制"
  const FixedHeaders: seq<string> := ["文件名", "文件路径", "页码"]

  /** A spreadsheet cell: text, a page number, or empty (Python `None`). */
  datatype Cell = Text(text: string) | PageNumber(n: nat) | Blank

  /** What `save_results` hands to the spreadsheet writer. */
  datatype Sheet = Sheet(path: string, headers: seq<string>, rows: seq<seq<Cell>>)

  function LowerAscii(c: char): char {
    if 'A' <= c <= 'Z' then (c as int + 32) as char else c
  }

  /** `path.lower().endswith('.xlsx')`. */
  predicate EndsWithXlsx(path: string) {
    |path| >= 5 && forall i :: 0 <= i < 5 ==> LowerAscii(path[|path| - 5 + i]) == ".xlsx"[i]
  }

  /** The region column headers `区域1..区域n`. */
  function RegionHeaders(n: nat): (h: seq<string>)
    ensures |h| == n
    ensures forall i :: 0 <= i < n ==> h[i] == "区域" + NatToString(i + 1)
  {
    seq(n, i requires 0 <= i < n => "区域" + NatToString(i + 1))
  }

  /** The three leading cells of a row: the file entry's name, path and
      page, or placeholders for a row with no file entry. */
  function InfoCells(infos: seq<FileInfo>, i: nat): seq<Cell> {
    if i < |infos| then
      [Text(infos[i].filename), Text(infos[i].filepath),
       if infos[i].page.Some? then PageNumber(infos[i].page.value) else Blank]
    else [Text("未知文件"), Text("未知路径"), Text("N/A")]
  }

  function TextCells(texts: seq<string>): (cells: seq<Cell>)
    ensures |cells| == |texts| && forall j :: 0 <= j < |texts| ==> cells[j] == Text(texts[j])
  {
    seq(|texts|, j requires 0 <= j < |texts| => Text(texts[j]))
  }

  /** The extension step of `save_results`: `.xlsx` is appended unless the
      path already ends with it in any letter case. */
  function OutputPath(path: string): (out: string)
    ensures EndsWithXlsx(out)
    ensures out == path <==> EndsWithXlsx(path)
    ensures out != path ==> out == path + ".xlsx"
  {
    if EndsWithXlsx(path) then path
    else
      var out := path + ".xlsx";
      assert out[|out| - 5..] == ".xlsx";
      out
  }

  /** The rows of `save_results`: each data row prefixed with its file
      entry's cells. */
  function Rows(data: seq<seq<string>>, infos: seq<FileInfo>): (rows: seq<seq<Cell>>)
    ensures |rows| == |data|
    ensures forall i :: 0 <= i < |data| ==>
              && |rows[i]| == 3 + |data[i]|
              && rows[i][..3] == InfoCells(infos, i)
              && rows[i][3..] == TextCells(data[i])
  {
    var rows := seq(|data|, i requires 0 <= i < |data| => InfoCells(infos, i) + TextCells(data[i]));
    assert forall i :: 0 <= i < |data| ==> rows[i][..3] == InfoCells(infos, i) && rows[i][3..] == TextCells(data[i]);
    rows
  }

  /** `os.path.dirname(p)` is not empty: the path names a folder. */
  predicate HasDirectory(p: string) {
    exists i :: 0 <= i < |p| && p[i] in Separators
  }

  /** Appending `.xlsx` neither adds nor removes a folder part. */
  lemma OutputPathKeepsDirectory(path: string)
    ensures HasDirectory(OutputPath(path)) <==> HasDirectory(path)
  {
    var out := OutputPath(path);
    if out != path {
      assert out == path + ".xlsx";
      assert forall i :: 0 <= i < |path| ==> out[i] == path[i];
      assert forall i :: |path| <= i < |out| ==> out[i] !in Separators;
    }
  }

  /** How `save_results` ends: the sheet handed to the writer, the
      `ValueError` for an over-long path, or the `makedirs('')` failure
      for a path with no folder part. Each failure is caught and shown. */
  datatype Saved = Written(sheet: Sheet) | TooLong(message: string) | NoDirectory

  /** `save_results` up to the writer: a path over 200 characters is
      refused; `.xlsx` is appended unless the path already ends with it in
      any letter case; a path with no folder part fails when its folder is
      created; the writer gets the absolute form of the path; the headers
      are the three file columns followed by one column per region; each
      data row is prefixed with its file entry's cells. */
  function SaveResults(data: seq<seq<string>>, path: string, regionCount: nat, infos: seq<FileInfo>,
                       absPath: string -> string): (r: Saved)
    ensures r.TooLong? <==> |path| > MaxPathLength
    ensures r.TooLong? ==> r.message == PathTooLongMessage
    ensures r.NoDirectory? <==> |path| <= MaxPathLength && !HasDirectory(OutputPath(path))
    ensures r.Written? ==> r.sheet.path == absPath(OutputPath(path))
    ensures r.Written? ==> && |r.sheet.headers| == 3 + regionCount
                           && r.sheet.headers[..3] == FixedHeaders
                           && r.sheet.headers[3..] == RegionHeaders(regionCount)
    ensures r.Written? ==> && |r.sheet.rows| == |data|
                           && forall i :: 0 <= i < |data| ==>
                                && |r.sheet.rows[i]| == 3 + |data[i]|
                                && r.sheet.rows[i][..3] == InfoCells(infos, i)
                                && r.sheet.rows[i][3..] == TextCells(data[i])
    ensures r.Written? && (forall i :: 0 <= i < |data| ==> |data[i]| == regionCount) ==>
              forall i :: 0 <= i < |data| ==> |r.sheet.rows[i]| == |r.sheet.headers|
  {
    if |path| > MaxPathLength then TooLong(PathTooLongMessage)
    else
      var out := OutputPath(path);
      if !HasDirectory(out) then NoDirectory
      else
        var headers := FixedHeaders + RegionHeaders(regionCount);
        assert headers[..3] == FixedHeaders && headers[3..] == RegionHeaders(regionCount);
        Written(Sheet(absPath(out), headers, Rows(data, infos)))
  }

  /** The path `process_all` passes, a file joined onto the output folder,
      always has a folder part, so a short one reaches the writer. */
  lemma JoinedPathIsWritten(data: seq<seq<string>>, folder: string, name: string, regionCount: nat,
                            infos: seq<FileInfo>, absPath: string -> string)
    requires |folder + "\\" + name| <= MaxPathLength
    ensures SaveResults(data, folder + "\\" + name, regionCount, infos, absPath).Written?
  {
    var path := folder + "\\" + name;
    assert path[|folder|] in Separators;
    OutputPathKeepsDirectory(path);
  }

  /** Rows beyond the file entries carry the placeholder cells. */
  lemma RowsWithoutInfoUsePlaceholders(data: seq<seq<string>>, path: string, regionCount: nat,
                                       infos: seq<FileInfo>, absPath: string -> string, i: nat)
    requires |path| <= MaxPathLength && HasDirectory(path) && |infos| <= i < |data|
    ensures SaveResults(data, path, regionCount, infos, absPath).sheet.rows[i][..3]
              == [Text("未知文件"), Text("未知路径"), Text("N/A")]
  {
    OutputPathKeepsDirectory(path);
  }
}

=== FILE: capture_viewer.dfy ===
/** The single-shot capture viewer of ocr_related/ctrlc_ocr.py: the fit
    scale of the shown page, the conversion of a selection back to source
    pixels, and the image list (labels, auto-selection, removal of the
    selected entries, clearing). OCR, the clipboard and the worker threads
    are left to the caller. */
module CaptureViewer {
  import opened Common
  import opened Geometry
  import FileNames
  import EditableTable

  const NoImageMessage: string := "错误：请先选择要操作的图片"
  const ClearedMessage: string := "已清空所有文件"
  const LoadedPrefix: string := "已加载："

  /** One entry of `self.images`: the source image, its file and page. */
  datatype Entry = Entry(orig: Raster, path: string, page: int)

  /** The viewer's state: the entries, the list labels and selection, the
      shown entry, the current index, the display scale and the status line. */
  datatype Viewer = Viewer(
    images: seq<Entry>,
    labels: seq<string>,
    selection: seq<nat>,
    current: Option<Entry>,
    index: int,
    scale: real,
    status: string)

  /** The state `__init__` sets up. */
  function NewViewer(): (v: Viewer)
    ensures v.images == [] && v.current.None? && v.index == -1 && v.scale == 1.0
  {
    Viewer([], [], [], None, -1, 1.0, "就绪")
  }

  /** Image files always have a positive size; `show_image` divides by it. */
  predicate Displayable(e: Entry) {
    e.orig.width > 0 && e.orig.height > 0
  }

  /** The scale `show_image` computes: `min(cw / w, ch / h, 1.0)`. It never
      enlarges, it fits the canvas, it is one of the three candidates, and
      it is positive on a canvas of positive size. */
  function DisplayScale(cw: int, ch: int, w: nat, h: nat): (s: real)
    requires w > 0 && h > 0
    ensures s <= 1.0 && s <= cw as real / w as real && s <= ch as real / h as real
    ensures s == 1.0 || s == cw as real / w as real || s == ch as real / h as real
    ensures cw > 0 && ch > 0 ==> s > 0.0
  {
    MinReal(MinReal(cw as real / w as real, ch as real / h as real), 1.0)
  }

  /** One side of the displayed size, `int(n * scale)`. */
  function DisplayedLength(n: nat, s: real): int {
    Trunc(n as real * s)
  }

  /** The displayed size never exceeds the source size, and fits the canvas. */
  lemma DisplayedSizeFits(cw: int, ch: int, w: nat, h: nat)
    requires w > 0 && h > 0 && cw > 0 && ch > 0
    ensures var s := DisplayScale(cw, ch, w, h);
            && 0 <= DisplayedLength(w, s) <= w && DisplayedLength(w, s) <= cw
            && 0 <= DisplayedLength(h, s) <= h && DisplayedLength(h, s) <= ch
  {
    var s := DisplayScale(cw, ch, w, h);
    AxisFits(cw, w, s);
    AxisFits(ch, h, s);
  }

  /** One axis of `DisplayedSizeFits`. */
  lemma AxisFits(c: int, n: nat, s: real)
    requires n > 0 && c > 0 && 0.0 < s <= 1.0 && s <= c as real / n as real
    ensures 0 <= DisplayedLength(n, s) <= n && DisplayedLength(n, s) <= c
  {
    var x := n as real * s;
    ScaleBelow(n as real, s, 1.0);
    ScaleBelow(n as real, s, c as real / n as real);
    CancelDivision(c as real, n as real);
    TruncMonotone(0.0, x);
    TruncMonotone(x, n as real);
    TruncMonotone(x, c as real);
    TruncOfInt(0);
    TruncOfInt(n);
    TruncOfInt(c);
  }

  lemma ScaleBelow(a: real, s: real, t: real)
    requires a >= 0.0 && s <= t
    ensures a * s <= a * t
  {
  }

  lemma CancelDivision(c: real, n: real)
    requires n != 0.0
    ensures n * (c / n) == c
  {
  }

  /** `os.path.basename`: what follows the last `\` or `/`. */
  function Basename(path: string): (b: string)
    ensures |b| <= |path| && b == path[|path| - |b|..]
    ensures forall i :: 0 <= i < |b| ==> b[i] !in Separators
    ensures (forall i :: 0 <= i < |path| ==> path[i] !in Separators) ==> b == path
    ensures |b| < |path| ==> path[|path| - |b| - 1] in Separators
  {
    var k := FileNames.LastIndexIn(path, Separators);
    path[k + 1..]
  }

  /** The basename of a folder joined with a separator-free file name is
      that file name, whatever the folder. */
  lemma {:induction false} BasenameOfJoin(folder: string, sep: char, name: string)
    requires sep in Separators
    requires forall i :: 0 <= i < |name| ==> name[i] !in Separators
    ensures Basename(folder + [sep] + name) == name
  {
    var path := folder + [sep] + name;
    var b := Basename(path);
    assert path[|folder|] == sep;
    assert forall i :: 0 <= i < |name| ==> path[|folder| + 1 + i] == name[i];
    assert path[|path| - |name|..] == name;
  }

  /** `show_image`: the entry becomes the shown one, with the fit scale and
      a status naming its file; the current index is not touched. */
  function ShowImage(v: Viewer, e: Entry, cw: int, ch: int): (r: Viewer)
    requires Displayable(e)
    ensures r.current == Some(e)
    ensures r.scale == DisplayScale(cw, ch, e.orig.width, e.orig.height)
    ensures r.status == LoadedPrefix + Basename(e.path)
    ensures r == v.(current := r.current, scale := r.scale, status := r.status)
  {
    v.(current := Some(e), scale := DisplayScale(cw, ch, e.orig.width, e.orig.height),
       status := LoadedPrefix + Basename(e.path))
  }

  /** `add_image`: one entry at the end; the page defaults to 1. */
  function AddImage(v: Viewer, img: Raster, path: string, page: Option<int>): (r: Viewer)
    ensures r.images == v.images + [Entry(img, path, if page.Some? then page.value else 1)]
    ensures r == v.(images := r.images)
  {
    v.(images := v.images + [Entry(img, path, if page.Some? then page.value else 1)])
  }

  /** The list label of one entry. */
  function EntryLabel(e: Entry): string {
    Basename(e.path) + (if e.page > 1 then " (Page " + IntToString(e.page) + ")" else "")
  }

  /** `update_image_list`: one label per entry, in order: the file's base
      name, with the page appended exactly when it is above 1. A non-empty
      list selects and shows its first entry; an empty one clears the shown
      entry. */
  function UpdateImageList(v: Viewer, cw: int, ch: int): (r: Viewer)
    requires |v.images| > 0 ==> Displayable(v.images[0])
    ensures r.images == v.images && |r.labels| == |v.images|
    ensures forall i :: 0 <= i < |v.images| ==> r.labels[i] == EntryLabel(v.images[i])
    ensures forall i :: 0 <= i < |v.images| ==>
              var b := Basename(v.images[i].path);
              && |b| <= |r.labels[i]| && r.labels[i][..|b|] == b
              && (v.images[i].page > 1 <==> |r.labels[i]| > |b|)
              && (v.images[i].page > 1 ==> r.labels[i][|b|..] == " (Page " + IntToString(v.images[i].page) + ")")
    ensures |v.images| > 0 ==>
              && r.selection == [0] && r.index == 0 && r.current == Some(v.images[0])
              && r.scale == DisplayScale(cw, ch, v.images[0].orig.width, v.images[0].orig.height)
              && r.status == LoadedPrefix + Basename(v.images[0].path)
              && r == v.(labels := r.labels, selection := [0], index := 0, current := r.current,
                         scale := r.scale, status := r.status)
    ensures |v.images| == 0 ==> r == v.(labels := [], selection := [], current := None)
  {
    var labels := seq(|v.images|, i requires 0 <= i < |v.images| => EntryLabel(v.images[i]));
    if |v.images| > 0 then
      ShowImage(v.(labels := labels, selection := [0], index := 0), v.images[0], cw, ch)
    else
      v.(labels := [], selection := [], current := None)
  }

  /** `on_release`: without a shown entry only the status changes. Otherwise
      the corners are ordered per axis, divided by the scale and truncated;
      the box is cropped and recognised (returned) only when it is strictly
      non-empty on both axes. */
  function OnRelease(v: Viewer, start: Point, end: Point): (r: (Viewer, Option<IntBox>))
    requires v.current.Some? ==> v.scale > 0.0
    ensures v.current.None? ==> r == (v.(status := NoImageMessage), None)
    ensures v.current.Some? ==> r.0 == v
    ensures r.1.Some? <==> v.current.Some? && SelectionBox(start, end, v.scale).x0 < SelectionBox(start, end, v.scale).x1
                                          && SelectionBox(start, end, v.scale).y0 < SelectionBox(start, end, v.scale).y1
    ensures r.1.Some? ==> r.1.value == SelectionBox(start, end, v.scale)
  {
    if v.current.None? then (v.(status := NoImageMessage), None)
    else
      var b := SelectionBox(start, end, v.scale);
      if b.x0 < b.x1 && b.y0 < b.y1 then (v, Some(b)) else (v, None)
  }

  /** The selection in source pixels: each axis ordered with `min`/`max`,
      divided by the display scale and truncated. It is ordered, and does not
      depend on the drag direction. */
  function SelectionBox(start: Point, end: Point, scale: real): (b: IntBox)
    requires scale > 0.0
    ensures b.x0 <= b.x1 && b.y0 <= b.y1
    ensures b.x0 == Trunc(MinReal(start.x, end.x) / scale) && b.x1 == Trunc(MaxReal(start.x, end.x) / scale)
    ensures b.y0 == Trunc(MinReal(start.y, end.y) / scale) && b.y1 == Trunc(MaxReal(start.y, end.y) / scale)
  {
    var lx, hx := MinReal(start.x, end.x), MaxReal(start.x, end.x);
    var ly, hy := MinReal(start.y, end.y), MaxReal(start.y, end.y);
    DivideMonotone(lx, hx, scale);
    DivideMonotone(ly, hy, scale);
    TruncMonotone(lx / scale, hx / scale);
    TruncMonotone(ly / scale, hy / scale);
    IntBox(Trunc(lx / scale), Trunc(ly / scale), Trunc(hx / scale), Trunc(hy / scale))
  }

  lemma DivideMonotone(a: real, b: real, s: real)
    requires a <= b && s > 0.0
    ensures a / s <= b / s
  {
  }

  /** Dragging from either corner selects the same box. */
  lemma SelectionSymmetric(p: Point, q: Point, scale: real)
    requires scale > 0.0
    ensures SelectionBox(p, q, scale) == SelectionBox(q, p, scale)
  {
  }

  /** A selection made at full scale inside the image with whole-pixel
      corners is the box spanned by those corners. */
  lemma SelectionAtFullScale(p: Point, q: Point)
    requires p.x == p.x.Floor as real && p.y == p.y.Floor as real
    requires q.x == q.x.Floor as real && q.y == q.y.Floor as real
    ensures var b := SelectionBox(p, q, 1.0);
            var s := FromCorners(p, q);
            b == IntBox(Trunc(s.left), Trunc(s.top), Trunc(s.right), Trunc(s.bottom))
  {
  }

  /** `reversed(seq)`. */
  function Reverse(s: seq<nat>): (r: seq<nat>)
    ensures |r| == |s| && forall i :: 0 <= i < |s| ==> r[i] == s[|s| - 1 - i]
  {
    seq(|s|, i requires 0 <= i < |s| => s[|s| - 1 - i])
  }

  /** A Tk selection: strictly increasing positions of existing entries. */
  predicate ValidSelection(sel: seq<nat>, n: nat) {
    && (forall j :: 0 <= j < |sel| ==> sel[j] < n)
    && (forall j, k :: 0 <= j < k < |sel| ==> sel[j] < sel[k])
  }

  /** Deleting the selected positions from the last to the first removes
      exactly the selected entries and keeps the rest in order. */
  lemma ReverseDeleteIsKeep<T>(s: seq<T>, sel: seq<nat>)
    requires ValidSelection(sel, |s|)
    ensures EditableTable.RemoveEach(s, Reverse(sel)) == EditableTable.Keep(s, EditableTable.Elements(sel))
  {
    var d := Reverse(sel);
    assert forall j, k :: 0 <= j < k < |d| ==> d[j] > d[k] by {
      forall j, k | 0 <= j < k < |d|
        ensures d[j] > d[k]
      {
        assert d[j] == sel[|sel| - 1 - j] && d[k] == sel[|sel| - 1 - k];
      }
    }
    EditableTable.RemoveDescendingIsKeep(s, d);
    assert EditableTable.Elements(d) == EditableTable.Elements(sel) by {
      forall x | x in EditableTable.Elements(sel)
        ensures x in EditableTable.Elements(d)
      {
        var j :| 0 <= j < |sel| && sel[j] == x;
        assert d[|sel| - 1 - j] == x;
      }
    }
  }

  /** `remove_selected`: with no entries, no selection or no confirmation
      nothing changes. Otherwise exactly the selected entries are removed
      (the others keep their order) and the list is rebuilt: the first
      remaining entry is shown at index 0, or, with none left, the shown
      entry is cleared and the status says so. */
  function RemoveSelected(v: Viewer, confirmed: bool, cw: int, ch: int): (r: Viewer)
    requires ValidSelection(v.selection, |v.images|)
    requires forall i :: 0 <= i < |v.images| ==> Displayable(v.images[i])
    ensures |v.images| == 0 || |v.selection| == 0 || !confirmed ==> r == v
    ensures |v.images| > 0 && |v.selection| > 0 && confirmed ==>
              && r.images == EditableTable.Keep(v.images, EditableTable.Elements(v.selection))
              && |r.images| == |v.images| - |v.selection|
              && |r.labels| == |r.images|
              && (forall i :: 0 <= i < |r.images| ==> r.labels[i] == EntryLabel(r.images[i]))
              && (|r.images| > 0 ==> && r.index == 0 && r.current == Some(r.images[0]) && r.selection == [0]
                                     && r.status == LoadedPrefix + Basename(r.images[0].path))
              && (|r.images| == 0 ==> r.current.None? && r.selection == [] && r.status == ClearedMessage)
  {
    if |v.images| == 0 || |v.selection| == 0 || !confirmed then v
    else
      var images := EditableTable.RemoveEach(v.images, Reverse(v.selection));
      ReverseDeleteIsKeep(v.images, v.selection);
      SelectionSize(v.selection, |v.images|);
      EditableTable.KeepLength(v.images, EditableTable.Elements(v.selection));
      KeepAllDisplayable(v.images, EditableTable.Elements(v.selection));
      var listed := UpdateImageList(v.(images := images), cw, ch);
      if |images| > 0 then ShowImage(listed.(selection := [0], index := 0), images[0], cw, ch)
      else listed.(current := None, status := ClearedMessage)
  }

  /** A valid selection lists as many entries as it has distinct members,
      all of them existing. */
  lemma {:induction false} SelectionSize(sel: seq<nat>, n: nat)
    requires ValidSelection(sel, n)
    ensures |EditableTable.Elements(sel)| == |sel|
    ensures forall x :: x in EditableTable.Elements(sel) ==> x < n
    decreases |sel|
  {
    if |sel| > 0 {
      var last := sel[|sel| - 1];
      var init := sel[..|sel| - 1];
      SelectionSize(init, n);
      assert sel == init + [last];
      assert EditableTable.Elements(sel) == EditableTable.Elements(init) + {last};
      assert last !in EditableTable.Elements(init);
    } else {
      assert EditableTable.Elements(sel) == {};
    }
  }

  /** Every entry kept by `Keep` still has a positive size. */
  lemma {:induction false} KeepAllDisplayable(s: seq<Entry>, gone: set<nat>)
    requires forall i :: 0 <= i < |s| ==> Displayable(s[i])
    ensures forall i :: 0 <= i < |EditableTable.Keep(s, gone)| ==> Displayable(EditableTable.Keep(s, gone)[i])
    decreases |s|
  {
    if |s| > 0 {
      KeepAllDisplayable(s[..|s| - 1], gone);
    }
  }

  /** `clear_all`: with entries and confirmation, all entries are dropped,
      the emptied list has no selection, nothing is shown and the status
      says so; otherwise nothing changes. */
  function ClearAll(v: Viewer, confirmed: bool): (r: Viewer)
    ensures |v.images| == 0 || !confirmed ==> r == v
    ensures |v.images| > 0 && confirmed ==>
              && r.images == [] && r.labels == [] && r.selection == [] && r.current.None?
              && r.status == ClearedMessage
              && r == v.(images := [], labels := [], selection := [], current := None, status := ClearedMessage)
  {
    if |v.images| == 0 || !confirmed then v
    else
      // The emptied list shows no entry, so the canvas size plays no part.
      var listed := UpdateImageList(v.(images := []), 0, 0);
      listed.(current := None, status := ClearedMessage)
  }

  /** Once cleared, the viewer stays as it is: a second clear and a
      removal of the (now empty) selection change nothing. */
  lemma ClearAllSettles(v: Viewer, confirmed: bool, again: bool, cw: int, ch: int)
    requires |v.images| > 0 && confirmed
    ensures var c := ClearAll(v, confirmed);
            && ValidSelection(c.selection, |c.images|)
            && ClearAll(c, again) == c
            && RemoveSelected(c, again, cw, ch) == c
  {
  }

  /** A new entry gets its label at the end of the rebuilt list, and the
      labels of the earlier entries are those the list showed before. */
  lemma AddImageLabels(v: Viewer, img: Raster, path: string, page: Option<int>, cw: int, ch: int)
    requires |v.images| > 0 ==> Displayable(v.images[0])
    requires |v.images| == 0 ==> img.width > 0 && img.height > 0
    ensures var e := Entry(img, path, if page.Some? then page.value else 1);
            var r := UpdateImageList(AddImage(v, img, path, page), cw, ch);
            && |r.labels| == |v.images| + 1
            && r.labels[|v.images|] == EntryLabel(e)
            && r.labels[..|v.images|] == UpdateImageList(v, cw, ch).labels
  {
    var e := Entry(img, path, if page.Some? then page.value else 1);
    var w := AddImage(v, img, path, page);
    var r := UpdateImageList(w, cw, ch);
    var before := UpdateImageList(v, cw, ch);
    assert w.images == v.images + [e];
    assert |r.labels| == |w.images| == |v.images| + 1;
    assert r.labels[|v.images|] == EntryLabel(w.images[|v.images|]);
    forall i | 0 <= i < |v.images|
      ensures r.labels[..|v.images|][i] == before.labels[i]
    {
      assert r.labels[i] == EntryLabel(w.images[i]);
      assert before.labels[i] == EntryLabel(v.images[i]);
    }
  }
}

=== FILE: common.dfy ===
/** Small shared vocabulary: optional values, error results, Python's
    numeric conversions and decimal rendering of integers. */
module Common {

  /** A value that may be absent (Python's `None`). */
  datatype Option<T> = None | Some(value: T)

  /** Either a value or an error message (a Python exception shown in a dialog). */
  datatype Result<T> = Ok(value: T) | Err(message: string)

  /** Path separators of Windows paths (`ntpath`). */
  const Separators: set<char> := {'\\', '/'}

  /** Python's `int()` applied to a float: truncation toward zero. */
  function Trunc(x: real): (r: int)
    ensures x >= 0.0 ==> 0 <= r && r as real <= x < r as real + 1.0
    ensures x < 0.0 ==> r <= 0 && r as real - 1.0 < x <= r as real
  {
    if x >= 0.0 then x.Floor else -((-x).Floor)
  }

  /** Truncation toward zero is monotone. */
  lemma TruncMonotone(x: real, y: real)
    requires x <= y
    ensures Trunc(x) <= Trunc(y)
  {
  }

  /** Truncation is the identity on values that are already whole. */
  lemma TruncOfInt(n: int)
    ensures Trunc(n as real) == n
  {
  }

  function MinInt(a: int, b: int): int { if b < a then b else a }
  function MaxInt(a: int, b: int): int { if b > a then b else a }
  function MinReal(a: real, b: real): real { if b < a then b else a }
  function MaxReal(a: real, b: real): real { if b > a then b else a }

  predicate IsDigit(c: char) { '0' <= c <= '9' }

  predicate AllDigits(s: string) { forall i :: 0 <= i < |s| ==> IsDigit(s[i]) }

  function DigitChar(d: nat): (c: char)
    requires d < 10
    ensures IsDigit(c) && c as int - '0' as int == d
  {
    ('0' as int + d) as char
  }

  /** Python's `str(n)` for a natural number: the shortest decimal numeral. */
  function NatToString(n: nat): (s: string)
    ensures |s| >= 1 && AllDigits(s)
    ensures n > 0 ==> s[0] != '0'
    decreases n
  {
    if n < 10 then [DigitChar(n)] else NatToString(n / 10) + [DigitChar(n % 10)]
  }

  /** Python's `str(i)` for any integer. */
  function IntToString(i: int): (s: string)
    ensures |s| >= 1
    ensures i < 0 <==> s[0] == '-'
    ensures i >= 0 ==> AllDigits(s) && DecimalValue(s) == i
    ensures i < 0 ==> AllDigits(s[1..]) && DecimalValue(s[1..]) == -i
  {
    if i < 0 then
      var digits := NatToString(-i);
      NatToStringRoundTrip(-i);
      assert ("-" + digits)[1..] == digits;
      "-" + digits
    else
      NatToStringRoundTrip(i);
      NatToString(i)
  }

  /** The value of a decimal numeral: the partner of `NatToString`. */
  function DecimalValue(s: string): nat
    requires AllDigits(s)
  {
    if |s| == 0 then 0
    else 10 * DecimalValue(s[..|s| - 1]) + (s[|s| - 1] as int - '0' as int)
  }

  /** Reading back what `NatToString` wrote gives the number again. */
  lemma {:induction false} NatToStringRoundTrip(n: nat)
    ensures DecimalValue(NatToString(n)) == n
    decreases n
  {
    var s := NatToString(n);
    if n >= 10 {
      NatToStringRoundTrip(n / 10);
      assert s[..|s| - 1] == NatToString(n / 10);
    }
  }

  /** Distinct numbers are written as distinct numerals. */
  lemma NatToStringInjective(m: nat, n: nat)
    requires NatToString(m) == NatToString(n)
    ensures m == n
  {
    NatToStringRoundTrip(m);
    NatToStringRoundTrip(n);
  }
}

=== FILE: editable_table.dfy ===
/** The results table of widgets/editable_table.py: its initial shape and
    the deletion of the selected rows (distinct rows, highest first). */
module EditableTable {
  import opened Common

  /** Header text of the single column a new table starts with. */
  const DefaultHeader: string := "默认字段"

  /** A QTableWidget: one header text per column and the rows of cells;
      a cell that was never filled holds no item. */
  datatype Table = Table(headers: seq<string>, rows: seq<seq<Option<string>>>) {
    function ColumnCount(): nat { |headers| }
    function RowCount(): nat { |rows| }
  }

  /** Every row has one cell per column. */
  predicate WellFormed(t: Table) {
    forall i :: 0 <= i < |t.rows| ==> |t.rows[i]| == |t.headers|
  }

  /** `EditableTable.__init__`: no rows and one column headed `DefaultHeader`. */
  function NewTable(): (t: Table)
    ensures t.RowCount() == 0 && t.ColumnCount() == 1 && t.headers[0] == DefaultHeader
    ensures WellFormed(t)
  {
    Table([DefaultHeader], [])
  }

  /** A selected cell, as `selectedIndexes()` reports it. */
  datatype CellIndex = CellIndex(row: nat, column: nat)

  /** The distinct rows touched by a selection. */
  function SelectedRows(cells: seq<CellIndex>): (rows: set<nat>)
    ensures rows == set c | c in cells :: c.row
    decreases |cells|
  {
    if |cells| == 0 then {}
    else
      var rest := SelectedRows(cells[1..]);
      assert forall c :: c in cells <==> c == cells[0] || c in cells[1..];
      {cells[0].row} + rest
  }

  /** Rows of cells inside an `n`-row table are rows of that table. */
  lemma {:induction false} SelectedRowsBelow(cells: seq<CellIndex>, n: nat)
    requires forall c :: c in cells ==> c.row < n
    ensures forall r :: r in SelectedRows(cells) ==> r < n
    decreases |cells|
  {
    if |cells| > 0 {
      assert forall c :: c in cells[1..] ==> c in cells;
      SelectedRowsBelow(cells[1..], n);
    }
  }

  /** The elements of a sequence of row numbers, as a set. */
  function Elements(d: seq<nat>): set<nat> {
    set x | x in d
  }

  /** `sorted(rows, reverse=True)` for a set of rows below `n`: every such
      row once, highest first. */
  function Descending(rows: set<nat>, n: nat): (d: seq<nat>)
    ensures forall j :: 0 <= j < |d| ==> d[j] < n
    ensures forall j, k :: 0 <= j < k < |d| ==> d[j] > d[k]
    ensures Elements(d) == set r | r in rows && r < n
  {
    if n == 0 then []
    else
      var rest := Descending(rows, n - 1);
      var d := (if n - 1 in rows then [n - 1] else []) + rest;
      assert Elements(d) == Elements(rest) + (if n - 1 in rows then {n - 1} else {});
      d
  }

  /** `removeRow(i)`: drops row `i`; Qt ignores a row that does not exist. */
  function RemoveRow<T>(s: seq<T>, i: nat): seq<T> {
    if i < |s| then s[..i] + s[i + 1..] else s
  }

  /** Removes the rows at the listed positions one after the other. */
  function RemoveEach<T>(s: seq<T>, d: seq<nat>): seq<T>
    decreases |d|
  {
    if |d| == 0 then s else RemoveEach(RemoveRow(s, d[0]), d[1..])
  }

  /** Reference definition: the rows whose positions are not in `gone`, in
      their original order. */
  function Keep<T>(s: seq<T>, gone: set<nat>): seq<T>
    decreases |s|
  {
    if |s| == 0 then [] else Keep(s[..|s| - 1], gone) + (if |s| - 1 in gone then [] else [s[|s| - 1]])
  }

  /** Only positions inside the sequence matter to `Keep`. */
  lemma {:induction false} KeepIgnoresOutside<T>(s: seq<T>, a: set<nat>, b: set<nat>)
    requires forall i: nat :: i < |s| ==> (i in a <==> i in b)
    ensures Keep(s, a) == Keep(s, b)
    decreases |s|
  {
    if |s| > 0 {
      KeepIgnoresOutside(s[..|s| - 1], a, b);
    }
  }

  /** Removing nothing keeps everything. */
  lemma {:induction false} KeepNothingGone<T>(s: seq<T>)
    ensures Keep(s, {}) == s
    decreases |s|
  {
    if |s| > 0 {
      KeepNothingGone(s[..|s| - 1]);
    }
  }

  /** Rows after every removed position are kept as they are. */
  lemma {:induction false} KeepAppendTail<T>(a: seq<T>, b: seq<T>, gone: set<nat>)
    requires forall i :: i in gone ==> i < |a|
    ensures Keep(a + b, gone) == Keep(a, gone) + b
    decreases |b|
  {
    if |b| == 0 {
      assert a + b == a;
    } else {
      var b' := b[..|b| - 1];
      assert (a + b)[..|a + b| - 1] == a + b';
      assert (a + b)[|a + b| - 1] == b[|b| - 1];
      KeepAppendTail(a, b', gone);
      assert b' + [b[|b| - 1]] == b;
    }
  }

  /** Removing the highest selected row first leaves the lower rows where
      they were, so the rest can be removed by their original numbers. */
  lemma KeepAfterRemove<T>(s: seq<T>, top: nat, rest: set<nat>)
    requires top < |s|
    requires forall i :: i in rest ==> i < top
    ensures Keep(RemoveRow(s, top), rest) == Keep(s, rest + {top})
  {
    var lower, upper := s[..top], s[top + 1..];
    var upTo := s[..top + 1];
    assert RemoveRow(s, top) == lower + upper;
    KeepAppendTail(lower, upper, rest);
    assert s == upTo + upper;
    KeepAppendTail(upTo, upper, rest + {top});
    assert upTo[..|upTo| - 1] == lower && |upTo| - 1 == top;
    assert Keep(upTo, rest + {top}) == Keep(lower, rest + {top});
    KeepIgnoresOutside(lower, rest + {top}, rest);
  }

  /** Removing distinct positions from the highest down is the same as
      keeping every row whose position was not listed. */
  lemma {:induction false} RemoveDescendingIsKeep<T>(s: seq<T>, d: seq<nat>)
    requires forall j :: 0 <= j < |d| ==> d[j] < |s|
    requires forall j, k :: 0 <= j < k < |d| ==> d[j] > d[k]
    ensures RemoveEach(s, d) == Keep(s, Elements(d))
    decreases |d|
  {
    if |d| == 0 {
      KeepNothingGone(s);
      assert Elements(d) == {};
    } else {
      var s' := RemoveRow(s, d[0]);
      assert forall j :: 0 <= j < |d[1..]| ==> d[1..][j] < d[0];
      RemoveDescendingIsKeep(s', d[1..]);
      KeepAfterRemove(s, d[0], Elements(d[1..]));
      assert Elements(d) == Elements(d[1..]) + {d[0]} by {
        assert d == [d[0]] + d[1..];
      }
    }
  }

  /** Removing a set of positions that all exist shortens the rows by its size. */
  lemma {:induction false} KeepLength<T>(s: seq<T>, gone: set<nat>)
    requires forall i :: i in gone ==> i < |s|
    ensures |Keep(s, gone)| == |s| - |gone|
    decreases |s|
  {
    if |s| > 0 {
      var n := |s| - 1;
      KeepIgnoresOutside(s[..n], gone, gone - {n});
      KeepLength(s[..n], gone - {n});
    } else {
      assert gone == {};
    }
  }

  /** `remove_selected_rows`: each distinct selected row is removed once,
      from the highest down, so every removal hits the row that was
      selected. The other rows keep their order and the headers are
      untouched; an empty selection changes nothing. */
  method RemoveSelectedRows(t: Table, cells: seq<CellIndex>) returns (r: Table)
    requires forall c :: c in cells ==> c.row < t.RowCount()
    ensures r.headers == t.headers
    ensures r.rows == Keep(t.rows, SelectedRows(cells))
    ensures |r.rows| == |t.rows| - |SelectedRows(cells)|
    ensures cells == [] ==> r == t
    ensures WellFormed(t) ==> WellFormed(r)
  {
    var order := Descending(SelectedRows(cells), |t.rows|);
    var rows := t.rows;
    var j := 0;
    while j < |order|
      invariant 0 <= j <= |order|
      invariant RemoveEach(rows, order[j..]) == RemoveEach(t.rows, order)
    {
      assert order[j..][0] == order[j] && order[j..][1..] == order[j + 1..];
      rows := RemoveRow(rows, order[j]);
      j := j + 1;
    }
    assert order[j..] == [];
    RemoveSelectedIsKeep(t.rows, cells);
    r := t.(rows := rows);
    if WellFormed(t) {
      KeepPreservesWidth(t.rows, SelectedRows(cells), |t.headers|);
    }
  }

  /** The descending removal order deletes exactly the selected rows. */
  lemma RemoveSelectedIsKeep<T>(s: seq<T>, cells: seq<CellIndex>)
    requires forall c :: c in cells ==> c.row < |s|
    ensures RemoveEach(s, Descending(SelectedRows(cells), |s|)) == Keep(s, SelectedRows(cells))
    ensures |Keep(s, SelectedRows(cells))| == |s| - |SelectedRows(cells)|
    ensures cells == [] ==> Keep(s, SelectedRows(cells)) == s
  {
    var selected := SelectedRows(cells);
    SelectedRowsBelow(cells, |s|);
    var order := Descending(selected, |s|);
    RemoveDescendingIsKeep(s, order);
    assert (set r | r in selected && r < |s|) == selected;
    KeepLength(s, selected);
    if cells == [] {
      assert selected == {};
      KeepNothingGone(s);
    }
  }

  /** Rows of equal width stay of that width when some are removed. */
  lemma {:induction false} KeepPreservesWidth(s: seq<seq<Option<string>>>, gone: set<nat>, w: nat)
    requires forall i :: 0 <= i < |s| ==> |s[i]| == w
    ensures forall i :: 0 <= i < |Keep(s, gone)| ==> |Keep(s, gone)[i]| == w
    decreases |s|
  {
    if |s| > 0 {
      KeepPreservesWidth(s[..|s| - 1], gone, w);
    }
  }
}

=== FILE: file_names.dfy ===
/** The Windows-safe result file name of `generate_filename`
    (ocr_related/gui_bluk_scanner.py): drop the extension, remove the
    characters Windows forbids, normalise, collapse whitespace runs to `_`,
    tag the page, cut to 50 characters, trim trailing `_`/`.`, and append
    the timestamp. The Unicode normaliser and the clock are parameters. */
module FileNames {
  import opened Common
  import BulkScanner

  /** The characters the source removes: `\ / * ? : " < > |`. */
  const Forbidden: set<char> := {'\\', '/', '*', '?', ':', '"', '<', '>', '|'}

  /** The longest stem kept before the timestamp. */
  const MaxStemLength: nat := 50

  /** Characters `rstrip('_.')` removes. */
  const TrailingTrim: set<char> := {'_', '.'}

  /** The characters Python's `\s` matches in a `str` pattern. */
  predicate IsSpace(c: char) {
    || '\t' <= c <= '\r' || '\U{1C}' <= c <= '\U{1F}' || c == ' '
    || c == '\U{85}' || c == '\U{A0}' || c == '\U{1680}' || '\U{2000}' <= c <= '\U{200A}'
    || c == '\U{2028}' || c == '\U{2029}' || c == '\U{202F}' || c == '\U{205F}' || c == '\U{3000}'
  }

  /** A character that may appear in the cleaned name: neither forbidden
      nor whitespace. */
  predicate CleanChar(c: char) {
    c !in Forbidden && !IsSpace(c)
  }

  /** The position of the last character of `s` in `cs`, or -1. */
  function LastIndexIn(s: string, cs: set<char>): (r: int)
    ensures -1 <= r < |s|
    ensures r >= 0 ==> s[r] in cs
    ensures forall k :: r < k < |s| ==> s[k] !in cs
  {
    if |s| == 0 then -1
    else if s[|s| - 1] in cs then |s| - 1
    else LastIndexIn(s[..|s| - 1], cs)
  }

  /** `os.path.splitext(p)[0]`: the extension starts at the last dot of the
      last path component, provided some non-dot precedes it there (so a
      leading dot, as in `.profile`, is not an extension). */
  function StripExtension(p: string): (stem: string)
    ensures |stem| <= |p| && stem == p[..|stem|]
    ensures stem != p ==>
              && p[|stem|] == '.'
              && (forall k :: |stem| < k < |p| ==> p[k] != '.' && p[k] !in Separators)
              && (exists k :: 0 <= k < |stem| && stem[k] != '.')
  {
    var sep := LastIndexIn(p, Separators);
    var dot := LastIndexIn(p, {'.'});
    if dot > sep && exists k :: sep < k < dot && p[k] != '.' then p[..dot] else p
  }

  /** The `re.sub` of step 1: the forbidden characters are removed
      and every other character is kept, in order. */
  function StripForbidden(s: string): (r: string)
    ensures |r| <= |s|
    decreases |s|
  {
    if |s| == 0 then []
    else (if s[0] in Forbidden then [] else [s[0]]) + StripForbidden(s[1..])
  }

  /** Stripping works character by character: a forbidden character
      leaves nothing and any other stays as it is. */
  lemma StripForbiddenChar(c: char)
    ensures StripForbidden([c]) == if c in Forbidden then [] else [c]
  {
    assert [c][1..] == [];
  }

  /** Stripping keeps the order: the stripped halves are concatenated. */
  lemma {:induction false} StripForbiddenConcat(a: string, b: string)
    ensures StripForbidden(a + b) == StripForbidden(a) + StripForbidden(b)
    decreases |a|
  {
    if |a| == 0 {
      assert a + b == b;
    } else {
      var ab := a + b;
      assert ab[0] == a[0] && ab[1..] == a[1..] + b;
      StripForbiddenConcat(a[1..], b);
      var head := if a[0] in Forbidden then [] else [a[0]];
      assert StripForbidden(ab) == head + StripForbidden(a[1..] + b);
      assert StripForbidden(a) == head + StripForbidden(a[1..]);
      AppendAssociative(head, StripForbidden(a[1..]), StripForbidden(b));
    }
  }

  /** A name without forbidden characters is left as it is. */
  lemma {:induction false} StripForbiddenIdentity(s: string)
    requires forall i :: 0 <= i < |s| ==> s[i] !in Forbidden
    ensures StripForbidden(s) == s
    decreases |s|
  {
    if |s| > 0 {
      StripForbiddenIdentity(s[1..]);
    }
  }

  /** The stripped name holds exactly the allowed characters of the input. */
  lemma StripForbiddenChars(s: string)
    ensures forall c :: c in StripForbidden(s) <==> c in s && c !in Forbidden
  {
    StripForbiddenCounts(s);
    forall c
      ensures c in StripForbidden(s) <==> c in s && c !in Forbidden
    {
      assert c in StripForbidden(s) <==> c in multiset(StripForbidden(s));
      assert c in s <==> c in multiset(s);
    }
  }

  /** Stripping drops every forbidden character and keeps every other one
      as often as it occurs. */
  lemma {:induction false} StripForbiddenCounts(s: string)
    ensures forall c :: multiset(StripForbidden(s))[c] == if c in Forbidden then 0 else multiset(s)[c]
    decreases |s|
  {
    if |s| > 0 {
      StripForbiddenCounts(s[1..]);
      var head := if s[0] in Forbidden then [] else [s[0]];
      assert s == [s[0]] + s[1..];
      assert multiset(s) == multiset{s[0]} + multiset(s[1..]);
      assert multiset(StripForbidden(s)) == multiset(head) + multiset(StripForbidden(s[1..]));
    }
  }

  /** The input without its leading whitespace. */
  function DropLeadingSpaces(s: string): (r: string)
    ensures |r| <= |s| && r == s[|s| - |r|..]
    ensures |r| == 0 || !IsSpace(r[0])
    ensures forall k :: 0 <= k < |s| - |r| ==> IsSpace(s[k])
  {
    if |s| > 0 && IsSpace(s[0]) then DropLeadingSpaces(s[1..]) else s
  }

  /** `re.sub(r'\s+', '_', s)`: every maximal run of whitespace becomes a
      single `_`; nothing else changes. */
  function Collapse(s: string): (r: string)
    ensures |r| <= |s|
    decreases |s|
  {
    if |s| == 0 then []
    else if IsSpace(s[0]) then "_" + Collapse(DropLeadingSpaces(s[1..]))
    else [s[0]] + Collapse(s[1..])
  }

  /** No whitespace is left after the substitution. */
  lemma {:induction false} CollapseNoSpace(s: string)
    ensures forall i :: 0 <= i < |Collapse(s)| ==> !IsSpace(Collapse(s)[i])
    decreases |s|
  {
    if |s| == 0 {
    } else if IsSpace(s[0]) {
      var rest := DropLeadingSpaces(s[1..]);
      CollapseNoSpace(rest);
      var r := Collapse(rest);
      assert Collapse(s) == "_" + r;
      assert forall i :: 0 < i <= |r| ==> ("_" + r)[i] == r[i - 1];
    } else {
      CollapseNoSpace(s[1..]);
      var r := Collapse(s[1..]);
      assert Collapse(s) == [s[0]] + r;
      assert forall i :: 0 < i <= |r| ==> ([s[0]] + r)[i] == r[i - 1];
    }
  }

  /** The substitution brings in no character but `_`. */
  lemma {:induction false} CollapseChars(s: string)
    ensures forall c :: c in Collapse(s) ==> c == '_' || c in s
    decreases |s|
  {
    if |s| == 0 {
    } else if IsSpace(s[0]) {
      var rest := DropLeadingSpaces(s[1..]);
      CollapseChars(rest);
      assert forall x :: x in rest ==> x in s by {
        assert rest == s[|s| - |rest|..];
      }
    } else {
      CollapseChars(s[1..]);
      assert forall x :: x in s[1..] ==> x in s;
    }
  }

  /** A name without whitespace is left as it is. */
  lemma {:induction false} CollapseNoSpaceIdentity(s: string)
    requires forall i :: 0 <= i < |s| ==> !IsSpace(s[i])
    ensures Collapse(s) == s
    decreases |s|
  {
    if |s| > 0 {
      CollapseNoSpaceIdentity(s[1..]);
    }
  }

  /** A whitespace run followed by a non-space becomes one `_` before it. */
  lemma CollapseRun(run: string, rest: string)
    requires |run| > 0 && forall i :: 0 <= i < |run| ==> IsSpace(run[i])
    requires |rest| == 0 || !IsSpace(rest[0])
    ensures Collapse(run + rest) == "_" + Collapse(rest)
  {
    var s := run + rest;
    assert s[0] == run[0] && IsSpace(s[0]);
    assert s[1..] == run[1..] + rest;
    DropRun(run[1..], rest);
    assert DropLeadingSpaces(s[1..]) == rest;
  }

  /** A non-space character is copied as it is, in front of the rest. */
  lemma CollapseNonSpace(c: char, s: string)
    requires !IsSpace(c)
    ensures Collapse([c] + s) == [c] + Collapse(s)
  {
    CollapseNonSpaceHead([c] + s);
    assert ([c] + s)[0] == c && ([c] + s)[1..] == s;
  }

  /** Nothing collapses to nothing. */
  lemma CollapseEmpty()
    ensures Collapse("") == ""
  {
  }

  /** Runs never merge across a boundary after a non-space character: the
      two sides collapse independently, each run becoming its own `_` in
      place. */
  lemma {:induction false} CollapseSplit(a: string, b: string)
    requires |a| == 0 || !IsSpace(a[|a| - 1])
    ensures Collapse(a + b) == Collapse(a) + Collapse(b)
    decreases |a|, 1
  {
    if |a| == 0 {
      assert a + b == b;
    } else if !IsSpace(a[0]) {
      CollapseSplitNonSpace(a, b);
    } else {
      CollapseSplitSpace(a, b);
    }
  }

  /** The case of `CollapseSplit` where `a` opens with a non-space. */
  lemma {:induction false} CollapseSplitNonSpace(a: string, b: string)
    requires |a| > 0 && !IsSpace(a[0]) && !IsSpace(a[|a| - 1])
    ensures Collapse(a + b) == Collapse(a) + Collapse(b)
    decreases |a|, 0
  {
    var ab := a + b;
    var tail := a[1..];
    assert ab[0] == a[0] && ab[1..] == tail + b;
    assert |tail| == 0 || tail[|tail| - 1] == a[|a| - 1];
    CollapseNonSpaceHead(ab);
    CollapseNonSpaceHead(a);
    CollapseSplit(tail, b);
    AppendAssociative([a[0]], Collapse(tail), Collapse(b));
  }

  /** The case of `CollapseSplit` where `a` opens with whitespace. */
  lemma {:induction false} CollapseSplitSpace(a: string, b: string)
    requires |a| > 0 && IsSpace(a[0]) && !IsSpace(a[|a| - 1])
    ensures Collapse(a + b) == Collapse(a) + Collapse(b)
    decreases |a|, 0
  {
    var ab := a + b;
    var tail := a[1..];
    assert ab[0] == a[0] && ab[1..] == tail + b;
    assert |tail| > 0 && tail[|tail| - 1] == a[|a| - 1];
    var d := DropLeadingSpaces(tail);
    DropKeepsTail(tail, b);
    CollapseSpaceHead(ab);
    CollapseSpaceHead(a);
    CollapseSplit(d, b);
    AppendAssociative("_", Collapse(d), Collapse(b));
  }

  lemma AppendAssociative(x: string, y: string, z: string)
    ensures x + (y + z) == (x + y) + z
  {
  }

  /** A whitespace run between two non-space characters (or the ends of the
      string) becomes exactly one `_` in its place. */
  lemma CollapseRunInPlace(before: string, run: string, after: string)
    requires |before| == 0 || !IsSpace(before[|before| - 1])
    requires |run| > 0 && forall i :: 0 <= i < |run| ==> IsSpace(run[i])
    requires |after| == 0 || !IsSpace(after[0])
    ensures Collapse(before + run + after) == Collapse(before) + "_" + Collapse(after)
  {
    AppendAssociative(before, run, after);
    CollapseSplit(before, run + after);
    CollapseRun(run, after);
    AppendAssociative(Collapse(before), "_", Collapse(after));
  }

  /** A string opening with a non-space keeps it in front of the collapse
      of the rest. */
  lemma CollapseNonSpaceHead(s: string)
    requires |s| > 0 && !IsSpace(s[0])
    ensures Collapse(s) == [s[0]] + Collapse(s[1..])
  {
  }

  /** A string opening with whitespace collapses to `_` followed by the
      collapse of what follows the run. */
  lemma CollapseSpaceHead(s: string)
    requires |s| > 0 && IsSpace(s[0])
    ensures Collapse(s) == "_" + Collapse(DropLeadingSpaces(s[1..]))
  {
  }

  /** Dropping the leading run of a string that has a non-space character
      does not reach what follows it. */
  lemma {:induction false} DropKeepsTail(x: string, y: string)
    requires |x| > 0 && !IsSpace(x[|x| - 1])
    ensures DropLeadingSpaces(x + y) == DropLeadingSpaces(x) + y
    ensures var d := DropLeadingSpaces(x); |d| > 0 && d[|d| - 1] == x[|x| - 1]
    decreases |x|
  {
    if IsSpace(x[0]) {
      assert (x + y)[0] == x[0] && (x + y)[1..] == x[1..] + y;
      DropKeepsTail(x[1..], y);
    } else {
      assert (x + y)[0] == x[0];
    }
  }

  lemma {:induction false} DropRun(run: string, rest: string)
    requires forall i :: 0 <= i < |run| ==> IsSpace(run[i])
    requires |rest| == 0 || !IsSpace(rest[0])
    ensures DropLeadingSpaces(run + rest) == rest
    decreases |run|
  {
    if |run| == 0 {
      assert run + rest == rest;
    } else {
      assert (run + rest)[1..] == run[1..] + rest;
      DropRun(run[1..], rest);
    }
  }

  /** `s.rstrip(cs)`: the longest prefix not ending in a character of `cs`. */
  function RStrip(s: string, cs: set<char>): (r: string)
    ensures |r| <= |s| && r == s[..|r|]
    ensures |r| == 0 || r[|r| - 1] !in cs
    ensures forall k :: |r| <= k < |s| ==> s[k] in cs
  {
    if |s| > 0 && s[|s| - 1] in cs then RStrip(s[..|s| - 1], cs) else s
  }

  /** The `_p{page}` tag, present exactly when the page is truthy. */
  function PageTag(page: Option<nat>): (t: string)
    ensures BulkScanner.PageTruthy(page) ==> t == "_p" + NatToString(page.value)
    ensures !BulkScanner.PageTruthy(page) ==> t == ""
  {
    if BulkScanner.PageTruthy(page) then "_p" + NatToString(page.value) else ""
  }

  /** The tag holds no forbidden or whitespace character. */
  lemma PageTagClean(page: Option<nat>)
    ensures forall i :: 0 <= i < |PageTag(page)| ==> CleanChar(PageTag(page)[i])
  {
    if BulkScanner.PageTruthy(page) {
      var d := NatToString(page.value);
      assert forall i :: 2 <= i < |PageTag(page)| ==> PageTag(page)[i] == d[i - 2];
    }
  }

  /** A present tag ends in a digit, which `rstrip('_.')` leaves alone. */
  lemma PageTagEndsInDigit(page: Option<nat>)
    ensures |PageTag(page)| > 0 ==> IsDigit(PageTag(page)[|PageTag(page)| - 1])
  {
    if BulkScanner.PageTruthy(page) {
      var d := NatToString(page.value);
      assert PageTag(page)[|PageTag(page)| - 1] == d[|d| - 1];
    }
  }

  /** Steps 5 of `generate_filename`: keep at most 50 characters, then
      `rstrip('_.')`. The result is a prefix of the input, and the input
      itself when it fits and does not end in `_` or `.`. */
  function CutStem(named: string): (t: string)
    ensures |t| <= MaxStemLength && |t| <= |named| && t == named[..|t|]
    ensures |t| == 0 || t[|t| - 1] !in TrailingTrim
    ensures 0 < |named| <= MaxStemLength && named[|named| - 1] !in TrailingTrim ==> t == named
    ensures forall j :: 0 <= j < MinInt(MaxStemLength, |named|) && named[j] !in TrailingTrim ==> j < |t|
  {
    var cut := named[..MinInt(MaxStemLength, |named|)];
    assert |named| <= MaxStemLength ==> cut == named;
    RStrip(cut, TrailingTrim)
  }

  /** Steps 4-6 shared by both orderings: tag the page, cut and trim the
      stem, and append `_` and the timestamp. The stem before the last `_`
      is a prefix of the tagged name; the tag survives whenever the tagged
      name fits. */
  function Finish(core: string, page: Option<nat>, timestamp: string): (r: string)
    ensures var k := |r| - |timestamp| - 1;
            && 0 <= k <= MaxStemLength
            && r[k..] == "_" + timestamp
            && k <= |core + PageTag(page)| && r[..k] == (core + PageTag(page))[..k]
            && (k == 0 || r[k - 1] !in TrailingTrim)
    ensures var named := core + PageTag(page);
            0 < |named| <= MaxStemLength && named[|named| - 1] !in TrailingTrim ==>
              r[..|r| - |timestamp| - 1] == named
    ensures BulkScanner.PageTruthy(page) && |core + PageTag(page)| <= MaxStemLength ==>
              r[..|r| - |timestamp| - 1] == core + PageTag(page)
    ensures !BulkScanner.PageTruthy(page) ==> |r| - |timestamp| - 1 <= |core|
    ensures var named := core + PageTag(page);
            forall j :: 0 <= j < MinInt(MaxStemLength, |named|) && named[j] !in TrailingTrim ==>
              j < |r| - |timestamp| - 1
  {
    var named := core + PageTag(page);
    var stem := CutStem(named);
    assert BulkScanner.PageTruthy(page) && |named| <= MaxStemLength ==> stem == named by {
      if BulkScanner.PageTruthy(page) && |named| <= MaxStemLength {
        PageTagEndsInDigit(page);
        assert named[|named| - 1] == PageTag(page)[|PageTag(page)| - 1];
      }
    }
    Stamp(stem, timestamp)
  }

  /** Step 6: `f"{stem}_{timestamp}"`, from which the stem can be read back. */
  function Stamp(stem: string, timestamp: string): (r: string)
    ensures |r| == |stem| + 1 + |timestamp|
    ensures r[..|stem|] == stem && r[|stem|..] == "_" + timestamp
  {
    var r := stem + "_" + timestamp;
    assert r[..|stem|] == stem;
    r
  }

  /** Steps 1-3 in the source's order: strip forbidden characters, then
      normalise, then collapse whitespace. */
  function SanitizeAsWritten(stem: string, normalize: string -> string): string {
    Collapse(normalize(StripForbidden(stem)))
  }

  /** Steps 1-3 in the corrected order: normalise first, so that nothing the
      normaliser produces escapes the stripping. */
  function Sanitize(stem: string, normalize: string -> string): (r: string)
    ensures forall i :: 0 <= i < |r| ==> CleanChar(r[i])
  {
    var stripped := StripForbidden(normalize(stem));
    var r := Collapse(stripped);
    StripForbiddenChars(normalize(stem));
    CollapseNoSpace(stripped);
    CollapseChars(stripped);
    assert forall i :: 0 <= i < |r| ==> r[i] in r;
    r
  }

  /** `generate_filename` as the source writes it. */
  function GenerateFilenameAsWritten(info: BulkScanner.FileInfo, normalize: string -> string, timestamp: string): string {
    Finish(SanitizeAsWritten(StripExtension(info.filename), normalize), info.page, timestamp)
  }

  /** `generate_filename` with normalisation before stripping. */
  function GenerateFilename(info: BulkScanner.FileInfo, normalize: string -> string, timestamp: string): string {
    Finish(CleanName(info, normalize), info.page, timestamp)
  }

  /** The corrected file name: the part before `_timestamp` is at most 50
      characters, holds no forbidden and no whitespace character, and does
      not end in `_` or `.`. */
  lemma GenerateFilenameSafe(info: BulkScanner.FileInfo, normalize: string -> string, timestamp: string)
    ensures var r := GenerateFilename(info, normalize, timestamp);
            var k := |r| - |timestamp| - 1;
            && 0 <= k <= MaxStemLength
            && r[k..] == "_" + timestamp
            && (forall i :: 0 <= i < k ==> CleanChar(r[i]))
            && (k == 0 || r[k - 1] !in TrailingTrim)
  {
    var core := CleanName(info, normalize);
    FinishKeepsClean(core, info.page, timestamp);
    var r := Finish(core, info.page, timestamp);
    assert r == GenerateFilename(info, normalize, timestamp);
  }

  /** The part before `_timestamp` is a prefix of the cleaned name followed
      by the page tag, and is all of it, tag included, when that fits; with
      no truthy page it comes from the cleaned name alone. */
  lemma GenerateFilenameKeepsTag(info: BulkScanner.FileInfo, normalize: string -> string, timestamp: string)
    ensures var r := GenerateFilename(info, normalize, timestamp);
            var named := CleanName(info, normalize) + PageTag(info.page);
            var k := |r| - |timestamp| - 1;
            && 0 <= k <= |named| && r[..k] == named[..k]
            && (BulkScanner.PageTruthy(info.page) && |named| <= MaxStemLength ==> r[..k] == named)
            && (!BulkScanner.PageTruthy(info.page) ==> k <= |CleanName(info, normalize)|)
  {
  }

  /** Steps 1-3 of the corrected `generate_filename` applied to the file
      name without its extension. */
  function CleanName(info: BulkScanner.FileInfo, normalize: string -> string): (r: string)
    ensures forall i :: 0 <= i < |r| ==> CleanChar(r[i])
  {
    Sanitize(StripExtension(info.filename), normalize)
  }

  /** A clean name stays clean through tagging, cutting and trimming. */
  lemma FinishKeepsClean(core: string, page: Option<nat>, timestamp: string)
    requires forall i :: 0 <= i < |core| ==> CleanChar(core[i])
    ensures var r := Finish(core, page, timestamp);
            forall i :: 0 <= i < |r| - |timestamp| - 1 ==> CleanChar(r[i])
  {
    var named := core + PageTag(page);
    var r := Finish(core, page, timestamp);
    var k := |r| - |timestamp| - 1;
    PageTagClean(page);
    assert forall i :: 0 <= i < |named| ==> CleanChar(named[i]) by {
      assert forall i :: |core| <= i < |named| ==> named[i] == PageTag(page)[i - |core|];
    }
    assert forall i :: 0 <= i < k ==> r[i] == r[..k][i] == named[i];
  }

  /** A fragment of NFKC: each full-width ASCII variant (U+FF01..U+FF5E)
      decomposes to its ASCII character and the ideographic space (U+3000)
      to a space; every other character is left as it is. */
  function FullwidthFold(s: string): (r: string)
    ensures |r| == |s|
  {
    seq(|s|, i requires 0 <= i < |s| =>
      if '\U{FF01}' <= s[i] <= '\U{FF5E}' then (s[i] as int - 0xFEE0) as char
      else if s[i] == '\U{3000}' then ' '
      else s[i])
  }

  /** As written, a full-width question mark passes the stripping and is
      turned into `?` by the normaliser: the PDF `发票？.pdf` gives a file
      name containing a forbidden character, whatever the timestamp. */
  lemma AsWrittenKeepsForbidden(info: BulkScanner.FileInfo, timestamp: string)
    requires info.filename == "发票\U{FF1F}.pdf"
    ensures '?' in GenerateFilenameAsWritten(info, FullwidthFold, timestamp)
  {
    var core := SanitizeAsWritten(StripExtension(info.filename), FullwidthFold);
    AsWrittenCore(info.filename);
    assert core == "发票?";
    var named := core + PageTag(info.page);
    assert named[..3] == core;
    assert named[2] == '?';
    FinishKeepsPosition(core, info.page, timestamp, 2);
  }

  /** A character within the first 50 of the tagged name that is neither
      `_` nor `.` survives the cut and the trim, at the same position. */
  lemma FinishKeepsPosition(core: string, page: Option<nat>, timestamp: string, j: nat)
    requires j < MinInt(MaxStemLength, |core + PageTag(page)|)
    requires (core + PageTag(page))[j] !in TrailingTrim
    ensures var r := Finish(core, page, timestamp);
            j < |r| - |timestamp| - 1 && r[j] == (core + PageTag(page))[j]
  {
    var named := core + PageTag(page);
    var r := Finish(core, page, timestamp);
    var k := |r| - |timestamp| - 1;
    assert j < k;
    assert r[j] == r[..k][j] == named[..k][j];
  }

  /** Steps 1-3 as written on `发票？.pdf` leave `发票?`. */
  lemma AsWrittenCore(name: string)
    requires name == "发票\U{FF1F}.pdf"
    ensures SanitizeAsWritten(StripExtension(name), FullwidthFold) == "发票?"
  {
    InvoiceStem(name);
    var stem := StripExtension(name);
    assert forall i :: 0 <= i < |stem| ==> stem[i] !in Forbidden;
    StripForbiddenIdentity(stem);
    InvoiceFold(stem);
    var folded := FullwidthFold(stem);
    assert forall i :: 0 <= i < |folded| ==> !IsSpace(folded[i]);
    CollapseNoSpaceIdentity(folded);
  }

  /** `splitext` of `发票？.pdf` cuts at the only dot. */
  lemma InvoiceStem(name: string)
    requires name == "发票\U{FF1F}.pdf"
    ensures StripExtension(name) == "发票\U{FF1F}"
  {
    assert |name| == 7 && name[3] == '.';
    assert forall i :: 0 <= i < 7 && i != 3 ==> name[i] != '.' && name[i] !in Separators;
    assert LastIndexIn(name, {'.'}) == 3;
    assert LastIndexIn(name, Separators) == -1;
    assert name[0] != '.';
    assert name[..3] == "发票\U{FF1F}";
  }

  /** The full-width question mark folds to `?`; the ideographs stay. */
  lemma InvoiceFold(stem: string)
    requires stem == "发票\U{FF1F}"
    ensures FullwidthFold(stem) == "发票?"
  {
    var folded := FullwidthFold(stem);
    assert folded[0] == '发' && folded[1] == '票' && folded[2] == '?';
  }
}

=== FILE: geometry.dfy ===
/** Points and rectangles shared by the three front-ends. Coordinates of
    the Qt and Tk canvases are modelled as reals; pixel boxes as integers. */
module Geometry {

  datatype Point = Point(x: real, y: real)

  function Sub(p: Point, q: Point): Point { Point(p.x - q.x, p.y - q.y) }
  function Add(p: Point, d: Point): Point { Point(p.x + d.x, p.y + d.y) }

  /** A QRectF given by its left, top, right and bottom edges. */
  datatype Rect = Rect(left: real, top: real, right: real, bottom: real) {
    function Width(): real { right - left }
    function Height(): real { bottom - top }
    function TopLeft(): Point { Point(left, top) }
    function TopRight(): Point { Point(right, top) }
    function BottomLeft(): Point { Point(left, bottom) }
    function BottomRight(): Point { Point(right, bottom) }
    predicate Normalized() { left <= right && top <= bottom }
  }

  /** `r` is the normalised rectangle that has `p` and `q` as opposite corners. */
  predicate SpannedBy(r: Rect, p: Point, q: Point) {
    && r.Normalized()
    && {r.left, r.right} == {p.x, q.x}
    && {r.top, r.bottom} == {p.y, q.y}
  }

  /** `QRectF(p, q).normalized()`: the rectangle with corners `p` and `q`,
      edges swapped where the width or height came out negative. */
  function FromCorners(p: Point, q: Point): (r: Rect)
    ensures SpannedBy(r, p, q)
    ensures r.Width() == if q.x >= p.x then q.x - p.x else p.x - q.x
    ensures r.Height() == if q.y >= p.y then q.y - p.y else p.y - q.y
  {
    Rect(if q.x < p.x then q.x else p.x, if q.y < p.y then q.y else p.y,
         if q.x < p.x then p.x else q.x, if q.y < p.y then p.y else q.y)
  }

  /** The rectangle spanned by two corners does not depend on their order. */
  lemma FromCornersSymmetric(p: Point, q: Point)
    ensures FromCorners(p, q) == FromCorners(q, p)
  {
  }

  /** A normalised rectangle is the normalisation of its own corners. */
  lemma FromCornersOfNormalized(r: Rect)
    requires r.Normalized()
    ensures FromCorners(r.TopLeft(), r.BottomRight()) == r
    ensures FromCorners(r.BottomRight(), r.TopLeft()) == r
  {
  }

  /** There is only one normalised rectangle spanned by two given corners. */
  lemma SpannedByUnique(r: Rect, s: Rect, p: Point, q: Point)
    requires SpannedBy(r, p, q) && SpannedBy(s, p, q)
    ensures r == s
  {
    assert r.left in {p.x, q.x} && r.right in {p.x, q.x};
    assert s.left in {p.x, q.x} && s.right in {p.x, q.x};
    assert r.top in {p.y, q.y} && r.bottom in {p.y, q.y};
    assert s.top in {p.y, q.y} && s.bottom in {p.y, q.y};
    if p.x != q.x {
      assert p.x in {r.left, r.right} && q.x in {r.left, r.right};
      assert p.x in {s.left, s.right} && q.x in {s.left, s.right};
    }
    if p.y != q.y {
      assert p.y in {r.top, r.bottom} && q.y in {r.top, r.bottom};
      assert p.y in {s.top, s.bottom} && q.y in {s.top, s.bottom};
    }
  }

  /** A region as a coordinate tuple `(x1, y1, x2, y2)` of reals. */
  datatype Region = Region(x1: real, y1: real, x2: real, y2: real)

  /** A pixel box as a coordinate tuple `(x0, y0, x1, y1)` of integers. */
  datatype IntBox = IntBox(x0: int, y0: int, x1: int, y1: int)

  /** A decoded page image: its pixel size, the number of samples per pixel
      `np.array` gives for it (1 for PIL modes `L`, `P` and `1`, 2 for `LA`,
      3 for `RGB`, 4 for `RGBA` and `CMYK`), and otherwise opaque content. */
  datatype Raster = Raster(width: nat, height: nat, channels: nat, pixels: seq<int>)
}

=== FILE: graphics_view.dfy ===
/** The Qt region editor of widgets/graphics_view.py: the list of drawn
    regions (`rect_items`) over a loaded page, the press/move/release
    handlers that draw and move regions, the corner handles that resize
    them, deletion with renumbering, and the export of the regions to
    source-image coordinates.

    The handlers' shared instance fields (`start_pos`, `current_rect`,
    `selected_region_ref`, a rectangle's `resize_edge`) become one explicit
    mode. A region is referred to by a generation id that is never reused,
    so a reference to a deleted region is detectably stale. */
module GraphicsView {
  import opened Common
  import opened Geometry

  /** A drawn rectangle is kept only if both sides exceed this (scene units). */
  const DrawMinSize: real := 5.0
  /** A corner drag is applied only if both sides exceed this. */
  const ResizeMinSize: real := 10.0
  /** Committed regions are drawn with a pen of width 2; Qt's bounding
      rectangle of a rectangle item extends half the pen width beyond it. */
  const PenHalfWidth: real := 1.0

  /** One `ResizableRectItem` of `rect_items`: its rectangle in item
      coordinates, its position in the scene (changed by `moveBy`) and the
      number shown on it. */
  datatype Item = Item(id: nat, rect: Rect, pos: Point, number: nat) {
    /** `sceneBoundingRect()`: the rectangle moved to the item position and
        widened by half the pen width on every side. */
    function SceneRect(): Rect {
      Rect(rect.left + pos.x - PenHalfWidth, rect.top + pos.y - PenHalfWidth,
           rect.right + pos.x + PenHalfWidth, rect.bottom + pos.y + PenHalfWidth)
    }
  }

  datatype Corner = TopLeft | TopRight | BottomLeft | BottomRight

  datatype Mode =
    | Idle
      /** `start_pos` is set: a new rectangle is being dragged out. */
    | Drawing(start: Point, preview: Rect)
      /** `selected_region_ref` is set: a region follows the pointer. */
    | Moving(target: nat, last: Point)
      /** A handle's `resize_edge` is set: a corner follows the pointer. */
    | Resizing(target: nat, corner: Corner, original: Rect)

  /** The loaded page's pixmap item: pixel size and scene position. */
  datatype Pixmap = Pixmap(width: nat, height: nat, origin: Point)

  datatype View = View(items: seq<Item>, mode: Mode, pixmap: Option<Pixmap>, nextId: nat)

  /** What `itemAt` finds under a left-button press. */
  datatype PressTarget = OnRegion(id: nat) | OnHandle(id: nat) | OnBackground

  /** A rectangle the draw handler would keep. */
  predicate Committable(r: Rect) {
    r.Normalized() && r.Width() > DrawMinSize && r.Height() > DrawMinSize
  }

  /** The editor invariant: regions are numbered 1..n in list order, have
      distinct ids below `nextId`, and are normalised and larger than the
      minimum drawing size. */
  predicate Valid(v: View) {
    && (forall i :: 0 <= i < |v.items| ==>
          v.items[i].id < v.nextId && v.items[i].number == i + 1 && Committable(v.items[i].rect))
    && (forall i, j :: 0 <= i < j < |v.items| ==> v.items[i].id != v.items[j].id)
  }

  /** Position of the region with the given id, if it is still in the list. */
  function IndexOf(items: seq<Item>, id: nat): (k: Option<nat>)
    ensures k.Some? ==> k.value < |items| && items[k.value].id == id
    ensures k.Some? ==> forall i :: 0 <= i < k.value ==> items[i].id != id
    ensures k.None? <==> forall i :: 0 <= i < |items| ==> items[i].id != id
  {
    if |items| == 0 then None
    else if items[0].id == id then Some(0)
    else match IndexOf(items[1..], id)
      case None => None
      case Some(k) => Some(k + 1)
  }

  /** Renumbers the regions 1..n in list order. */
  function Relabel(items: seq<Item>): (r: seq<Item>)
    ensures |r| == |items|
    ensures forall i :: 0 <= i < |r| ==> r[i] == items[i].(number := i + 1)
  {
    seq(|items|, i requires 0 <= i < |items| => items[i].(number := i + 1))
  }

  /** A fresh view: no page, no regions. */
  function NewView(): (v: View)
    ensures Valid(v) && v.items == [] && v.mode == Idle && v.pixmap.None?
  {
    View([], Idle, None, 0)
  }

  /** `load_image`: shows a new page and drops every region. */
  function LoadImage(v: View, width: nat, height: nat): (r: View)
    ensures r.items == [] && r.mode == Idle
    ensures r.pixmap == Some(Pixmap(width, height, Point(0.0, 0.0)))
    ensures r.nextId == v.nextId && Valid(r)
    ensures forall i :: 0 <= i < |v.items| ==> IndexOf(r.items, v.items[i].id).None?
  {
    View([], Idle, Some(Pixmap(width, height, Point(0.0, 0.0))), v.nextId)
  }

  /** `mousePressEvent` with the left button. A press on a region selects it
      for moving, remembering the pointer in view coordinates; a press on a
      handle is consumed by the view; anything else starts a rectangle at
      the pointer in scene coordinates. */
  function Press(v: View, target: PressTarget, viewPos: Point, scenePos: Point): (r: View)
    ensures r.items == v.items && r.pixmap == v.pixmap && r.nextId == v.nextId
    ensures target.OnRegion? ==> r.mode == Moving(target.id, viewPos)
    ensures target.OnHandle? ==> r == v
    ensures target.OnBackground? ==> r.mode.Drawing? && r.mode.start == scenePos
  {
    match target
    case OnRegion(id) => v.(mode := Moving(id, viewPos))
    case OnHandle(_) => v
    case OnBackground => v.(mode := Drawing(scenePos, Rect(0.0, 0.0, 0.0, 0.0)))
  }

  /** `mouseMoveEvent`. A moving region is shifted by the pointer's step
      since the last event and the step's end becomes the new reference; a
      reference to a region no longer in the list is dropped. While drawing
      only the preview changes. */
  function Move(v: View, viewPos: Point, scenePos: Point): (r: View)
    ensures r.pixmap == v.pixmap && r.nextId == v.nextId && |r.items| == |v.items|
    ensures !v.mode.Moving? ==> r.items == v.items
    ensures v.mode.Drawing? ==> r.mode == Drawing(v.mode.start, FromCorners(v.mode.start, scenePos))
    ensures v.mode.Moving? && IndexOf(v.items, v.mode.target).None? ==>
              r.items == v.items && r.mode == Idle
    ensures v.mode.Moving? && IndexOf(v.items, v.mode.target).Some? ==>
              var k := IndexOf(v.items, v.mode.target).value;
              && r.mode == Moving(v.mode.target, viewPos)
              && r.items[k].pos == Add(v.items[k].pos, Sub(viewPos, v.mode.last))
              && r.items[k].rect == v.items[k].rect && r.items[k].id == v.items[k].id
              && r.items[k].number == v.items[k].number
              && forall i :: 0 <= i < |v.items| && i != k ==> r.items[i] == v.items[i]
  {
    match v.mode
    case Moving(id, last) =>
      (match IndexOf(v.items, id)
       case Some(k) =>
         var it := v.items[k];
         v.(items := v.items[k := it.(pos := Add(it.pos, Sub(viewPos, last)))],
            mode := Moving(id, viewPos))
       case None => v.(mode := Idle))
    case Drawing(start, _) => v.(mode := Drawing(start, FromCorners(start, scenePos)))
    case _ => v
  }

  /** `mouseReleaseEvent`. Ends a move, or ends a drawing: the normalised
      rectangle from the start point to the pointer is appended, numbered
      with the new list length, exactly when both its sides exceed the
      minimum; the drawing state is cleared either way. */
  function Release(v: View, scenePos: Point): (r: View)
    ensures r.pixmap == v.pixmap
    ensures v.mode.Moving? ==> r == v.(mode := Idle)
    ensures !v.mode.Moving? && !v.mode.Drawing? ==> r == v
    ensures v.mode.Drawing? ==>
              var rect := FromCorners(v.mode.start, scenePos);
              && r.mode == Idle
              && (|r.items| == |v.items| + 1 <==> rect.Width() > DrawMinSize && rect.Height() > DrawMinSize)
              && (|r.items| == |v.items| + 1 ==>
                    r.items == v.items + [Item(v.nextId, rect, Point(0.0, 0.0), |r.items|)])
              && (|r.items| != |v.items| + 1 ==> r.items == v.items)
  {
    match v.mode
    case Moving(_, _) => v.(mode := Idle)
    case Drawing(start, _) =>
      var rect := FromCorners(start, scenePos);
      if rect.Width() > DrawMinSize && rect.Height() > DrawMinSize then
        View(v.items + [Item(v.nextId, rect, Point(0.0, 0.0), |v.items| + 1)], Idle, v.pixmap, v.nextId + 1)
      else
        v.(mode := Idle)
    case _ => v
  }

  /** The corner diagonally opposite the given one. */
  function Opposite(r: Rect, c: Corner): Point {
    match c
    case TopLeft => r.BottomRight()
    case TopRight => r.BottomLeft()
    case BottomLeft => r.TopRight()
    case BottomRight => r.TopLeft()
  }

  /** The corner itself. */
  function CornerOf(r: Rect, c: Corner): Point {
    match c
    case TopLeft => r.TopLeft()
    case TopRight => r.TopRight()
    case BottomLeft => r.BottomLeft()
    case BottomRight => r.BottomRight()
  }

  /** The rectangle `_handle_move` computes when the handle at corner `c`
      of `original` is dragged to `p`: `p` and the opposite corner of
      `original` become opposite corners of a normalised rectangle, however
      far past the fixed corner the pointer went. */
  function ResizeRect(original: Rect, c: Corner, p: Point): (r: Rect)
    ensures SpannedBy(r, Opposite(original, c), p)
    ensures r.Normalized()
  {
    match c
    case TopLeft => FromCorners(p, original.BottomRight())
    case TopRight => FromCorners(Point(original.left, p.y), Point(p.x, original.bottom))
    case BottomLeft => FromCorners(Point(p.x, original.top), Point(original.right, p.y))
    case BottomRight => FromCorners(original.TopLeft(), p)
  }

  /** Dragging a handle back to where it started gives the original rectangle. */
  lemma ResizeAtOwnCorner(original: Rect, c: Corner)
    requires original.Normalized()
    ensures ResizeRect(original, c, CornerOf(original, c)) == original
  {
    var r := ResizeRect(original, c, CornerOf(original, c));
    var p, q := Opposite(original, c), CornerOf(original, c);
    assert SpannedBy(original, p, q) by {
      match c
      case TopLeft => assert {original.left, original.right} == {q.x, p.x};
      case TopRight =>
      case BottomLeft =>
      case BottomRight =>
    }
    SpannedByUnique(r, original, p, q);
  }

  /** `_handle_press`: the handle at corner `c` of a listed region records
      the region's rectangle as the origin of the drag. */
  function HandlePress(v: View, id: nat, c: Corner): (r: View)
    ensures r.items == v.items && r.pixmap == v.pixmap && r.nextId == v.nextId
    ensures IndexOf(v.items, id).Some? ==>
              r.mode == Resizing(id, c, v.items[IndexOf(v.items, id).value].rect)
    ensures IndexOf(v.items, id).None? ==> r == v
  {
    match IndexOf(v.items, id)
    case Some(k) => v.(mode := Resizing(id, c, v.items[k].rect))
    case None => v
  }

  /** `_handle_move`: recomputes the rectangle from the recorded origin and
      applies it only when both sides exceed the resize minimum; otherwise
      the region keeps whatever rectangle it had. */
  function HandleMove(v: View, scenePos: Point): (r: View)
    ensures r.mode == v.mode && r.pixmap == v.pixmap && r.nextId == v.nextId
    ensures |r.items| == |v.items|
    ensures !v.mode.Resizing? || IndexOf(v.items, v.mode.target).None? ==> r == v
    ensures v.mode.Resizing? && IndexOf(v.items, v.mode.target).Some? ==>
              var k := IndexOf(v.items, v.mode.target).value;
              var nr := ResizeRect(v.mode.original, v.mode.corner, scenePos);
              && (nr.Width() > ResizeMinSize && nr.Height() > ResizeMinSize ==>
                    r.items == v.items[k := v.items[k].(rect := nr)])
              && (!(nr.Width() > ResizeMinSize && nr.Height() > ResizeMinSize) ==> r == v)
  {
    match v.mode
    case Resizing(id, c, original) =>
      (match IndexOf(v.items, id)
       case Some(k) =>
         var nr := ResizeRect(original, c, scenePos);
         if nr.Width() > ResizeMinSize && nr.Height() > ResizeMinSize then
           v.(items := v.items[k := v.items[k].(rect := nr)])
         else v
       case None => v)
    case _ => v
  }

  /** `_handle_release`: ends the resize. */
  function HandleRelease(v: View): (r: View)
    ensures r.items == v.items && r.pixmap == v.pixmap && r.nextId == v.nextId
    ensures v.mode.Resizing? ==> r.mode == Idle
    ensures !v.mode.Resizing? ==> r == v
  {
    if v.mode.Resizing? then v.(mode := Idle) else v
  }

  /** `_delete_region`: removes a listed region and renumbers the rest;
      a region that is not listed leaves the view unchanged. */
  function Delete(v: View, id: nat): (r: View)
    ensures r.mode == v.mode && r.pixmap == v.pixmap && r.nextId == v.nextId
    ensures IndexOf(v.items, id).None? ==> r == v
    ensures IndexOf(v.items, id).Some? ==>
              var k := IndexOf(v.items, id).value;
              && |r.items| == |v.items| - 1
              && (forall i :: 0 <= i < k ==> r.items[i] == v.items[i].(number := i + 1))
              && (forall i :: k <= i < |r.items| ==> r.items[i] == v.items[i + 1].(number := i + 1))
  {
    match IndexOf(v.items, id)
    case Some(k) => v.(items := Relabel(v.items[..k] + v.items[k + 1..]))
    case None => v
  }

  /** Deletion keeps the editor invariant, and the deleted region is gone. */
  lemma DeleteKeepsValid(v: View, id: nat)
    requires Valid(v)
    ensures Valid(Delete(v, id)) && IndexOf(Delete(v, id).items, id).None?
  {
    var r := Delete(v, id);
    if IndexOf(v.items, id).Some? {
      var k := IndexOf(v.items, id).value;
      assert forall i :: 0 <= i < |r.items| ==> r.items[i].id == v.items[if i < k then i else i + 1].id;
    }
  }

  /** Python's `max(0, min(value, high))`. */
  function Clamp(value: real, high: real): (c: real)
    ensures 0.0 <= c && (high >= 0.0 ==> c <= high) && (high < 0.0 ==> c == 0.0)
    ensures 0.0 <= value <= high ==> c == value
  {
    MaxReal(0.0, MinReal(value, high))
  }

  /** Clamping into the same range keeps the order of two values. */
  lemma ClampMonotone(a: real, b: real, ha: real, hb: real)
    requires a <= b && ha <= hb
    ensures Clamp(a, ha) <= Clamp(b, hb)
  {
  }

  /** A scene coordinate taken relative to the pixmap origin and scaled by
      target size over displayed size. */
  function Scaled(v: real, origin: real, target: int, shown: nat): real
    requires shown > 0
  {
    (v - origin) * (target as real / shown as real)
  }

  /** Scaling by a non-negative factor keeps the order of two coordinates. */
  lemma ScaledMonotone(a: real, b: real, origin: real, target: int, shown: nat)
    requires shown > 0 && target >= 0 && a <= b
    ensures Scaled(a, origin, target, shown) <= Scaled(b, origin, target, shown)
  {
    var f := target as real / shown as real;
    assert f >= 0.0;
    assert (b - origin) * f - (a - origin) * f == (b - a) * f;
  }

  /** One tuple of `get_scaled_regions`: the region's scene rectangle, taken
      relative to the pixmap, scaled by target size over displayed size and
      clamped so that the left and top edges stay one pixel inside. */
  function ExportRegion(pm: Pixmap, it: Item, imgW: int, imgH: int): (g: Region)
    requires pm.width > 0 && pm.height > 0
    ensures 0.0 <= g.x1 && 0.0 <= g.y1 && 0.0 <= g.x2 && 0.0 <= g.y2
    ensures imgW >= 1 ==> g.x1 <= (imgW - 1) as real && g.x2 <= imgW as real
    ensures imgH >= 1 ==> g.y1 <= (imgH - 1) as real && g.y2 <= imgH as real
    ensures imgW >= 0 && imgH >= 0 && it.SceneRect().Normalized() ==> g.x1 <= g.x2 && g.y1 <= g.y2
  {
    var s := it.SceneRect();
    var x1, x2 := Scaled(s.left, pm.origin.x, imgW, pm.width), Scaled(s.right, pm.origin.x, imgW, pm.width);
    var y1, y2 := Scaled(s.top, pm.origin.y, imgH, pm.height), Scaled(s.bottom, pm.origin.y, imgH, pm.height);
    assert imgW >= 0 && s.left <= s.right ==> x1 <= x2 by {
      if imgW >= 0 && s.left <= s.right {
        ScaledMonotone(s.left, s.right, pm.origin.x, imgW, pm.width);
      }
    }
    assert imgH >= 0 && s.top <= s.bottom ==> y1 <= y2 by {
      if imgH >= 0 && s.top <= s.bottom {
        ScaledMonotone(s.top, s.bottom, pm.origin.y, imgH, pm.height);
      }
    }
    assert imgW >= 0 && s.left <= s.right ==> Clamp(x1, (imgW - 1) as real) <= Clamp(x2, imgW as real) by {
      if imgW >= 0 && s.left <= s.right {
        ClampMonotone(x1, x2, (imgW - 1) as real, imgW as real);
      }
    }
    assert imgH >= 0 && s.top <= s.bottom ==> Clamp(y1, (imgH - 1) as real) <= Clamp(y2, imgH as real) by {
      if imgH >= 0 && s.top <= s.bottom {
        ClampMonotone(y1, y2, (imgH - 1) as real, imgH as real);
      }
    }
    Region(Clamp(x1, (imgW - 1) as real), Clamp(y1, (imgH - 1) as real),
           Clamp(x2, imgW as real), Clamp(y2, imgH as real))
  }

  /** An exported coordinate that needed no clamping is the exact scaled coordinate. */
  lemma ExportUnclamped(pm: Pixmap, it: Item, imgW: int, imgH: int)
    requires pm.width > 0 && pm.height > 0
    ensures var x := Scaled(it.SceneRect().left, pm.origin.x, imgW, pm.width);
            0.0 <= x <= (imgW - 1) as real ==> ExportRegion(pm, it, imgW, imgH).x1 == x
    ensures var x := Scaled(it.SceneRect().right, pm.origin.x, imgW, pm.width);
            0.0 <= x <= imgW as real ==> ExportRegion(pm, it, imgW, imgH).x2 == x
    ensures var y := Scaled(it.SceneRect().top, pm.origin.y, imgH, pm.height);
            0.0 <= y <= (imgH - 1) as real ==> ExportRegion(pm, it, imgW, imgH).y1 == y
    ensures var y := Scaled(it.SceneRect().bottom, pm.origin.y, imgH, pm.height);
            0.0 <= y <= imgH as real ==> ExportRegion(pm, it, imgW, imgH).y2 == y
  {
  }

  /** The pen margin on an unscaled page: a region drawn from (20,20) to
      (220,220) exports as (19,19)-(221,221). */
  lemma ExportPenMargin()
    ensures ExportRegion(Pixmap(1000, 1000, Point(0.0, 0.0)),
                         Item(0, Rect(20.0, 20.0, 220.0, 220.0), Point(0.0, 0.0), 1), 1000, 1000)
            == Region(19.0, 19.0, 221.0, 221.0)
  {
    var pm := Pixmap(1000, 1000, Point(0.0, 0.0));
    var it := Item(0, Rect(20.0, 20.0, 220.0, 220.0), Point(0.0, 0.0), 1);
    assert it.SceneRect() == Rect(19.0, 19.0, 221.0, 221.0);
    ExportUnclamped(pm, it, 1000, 1000);
  }

  /** `get_scaled_regions`: nothing before a page is loaded or when the page
      is empty; otherwise one tuple per region, in list order, inside the
      target image and with its corners in order. */
  function ScaledRegions(v: View, imgW: int, imgH: int): (r: seq<Region>)
    ensures v.pixmap.None? || v.pixmap.value.width == 0 || v.pixmap.value.height == 0 ==> r == []
    ensures v.pixmap.Some? && v.pixmap.value.width > 0 && v.pixmap.value.height > 0 ==>
              |r| == |v.items| &&
              forall i :: 0 <= i < |r| ==> r[i] == ExportRegion(v.pixmap.value, v.items[i], imgW, imgH)
    ensures forall i :: 0 <= i < |r| ==> 0.0 <= r[i].x1 && 0.0 <= r[i].y1 && 0.0 <= r[i].x2 && 0.0 <= r[i].y2
    ensures imgW >= 1 && imgH >= 1 ==> forall i :: 0 <= i < |r| ==>
              r[i].x1 <= (imgW - 1) as real && r[i].x2 <= imgW as real &&
              r[i].y1 <= (imgH - 1) as real && r[i].y2 <= imgH as real
    ensures imgW >= 0 && imgH >= 0 && Valid(v) ==> forall i :: 0 <= i < |r| ==>
              r[i].x1 <= r[i].x2 && r[i].y1 <= r[i].y2
  {
    match v.pixmap
    case None => []
    case Some(pm) =>
      if pm.width == 0 || pm.height == 0 then []
      else seq(|v.items|, i requires 0 <= i < |v.items| => ExportRegion(pm, v.items[i], imgW, imgH))
  }

  /** The user gestures the view reacts to. */
  datatype Event =
    | PressAt(target: PressTarget, viewPos: Point, scenePos: Point)
    | MoveTo(viewPos: Point, scenePos: Point)
    | ReleaseAt(scenePos: Point)
    | HandlePressed(id: nat, corner: Corner)
    | HandleMoved(scenePos: Point)
    | HandleReleased
    | DeleteRegion(id: nat)
    | LoadPage(width: nat, height: nat)

  function Step(v: View, e: Event): View {
    match e
    case PressAt(t, vp, sp) => Press(v, t, vp, sp)
    case MoveTo(vp, sp) => Move(v, vp, sp)
    case ReleaseAt(sp) => Release(v, sp)
    case HandlePressed(id, c) => HandlePress(v, id, c)
    case HandleMoved(sp) => HandleMove(v, sp)
    case HandleReleased => HandleRelease(v)
    case DeleteRegion(id) => Delete(v, id)
    case LoadPage(w, h) => LoadImage(v, w, h)
  }

  function Replay(v: View, es: seq<Event>): View
    decreases |es|
  {
    if |es| == 0 then v else Replay(Step(v, es[0]), es[1..])
  }

  /** Every handler keeps the editor invariant. */
  lemma StepPreservesValid(v: View, e: Event)
    requires Valid(v)
    ensures Valid(Step(v, e))
  {
    match e
    case ReleaseAt(sp) =>
      var r := Step(v, e);
      if v.mode.Drawing? && |r.items| == |v.items| + 1 {
        assert r.items[|v.items|].rect == FromCorners(v.mode.start, sp);
      }
    case HandleMoved(sp) =>
      if v.mode.Resizing? && IndexOf(v.items, v.mode.target).Some? {
        var k := IndexOf(v.items, v.mode.target).value;
        var nr := ResizeRect(v.mode.original, v.mode.corner, sp);
        assert nr.Width() > ResizeMinSize ==> nr.Width() > DrawMinSize;
      }
    case DeleteRegion(id) => DeleteKeepsValid(v, id);
    case _ =>
  }

  /** So does any sequence of gestures, starting from a fresh view. */
  lemma {:induction false} ReplayPreservesValid(v: View, es: seq<Event>)
    requires Valid(v)
    ensures Valid(Replay(v, es))
    decreases |es|
  {
    if |es| > 0 {
      StepPreservesValid(v, es[0]);
      ReplayPreservesValid(Step(v, es[0]), es[1..]);
    }
  }

  /** Successive pointer positions of a move, replayed through `Move`. */
  function MoveThrough(v: View, ps: seq<Point>): View
    decreases |ps|
  {
    if |ps| == 0 then v else MoveThrough(Move(v, ps[0], ps[0]), ps[1..])
  }

  /** Because each step moves the region by the step's delta and then makes
      the step's end the new reference, a region selected at `start` and
      dragged through `ps` ends displaced by exactly the last position
      minus `start`; nothing else in the list changes. */
  lemma {:induction false} MoveTotalDisplacement(v: View, ps: seq<Point>, k: nat)
    requires v.mode.Moving? && k < |v.items| && v.items[k].id == v.mode.target
    requires Valid(v) && |ps| > 0
    ensures var r := MoveThrough(v, ps);
            && |r.items| == |v.items|
            && r.items[k] == v.items[k].(pos := Add(v.items[k].pos, Sub(ps[|ps| - 1], v.mode.last)))
            && (forall i :: 0 <= i < |v.items| && i != k ==> r.items[i] == v.items[i])
            && r.mode == Moving(v.mode.target, ps[|ps| - 1])
    decreases |ps|
  {
    var w := Move(v, ps[0], ps[0]);
    assert IndexOf(v.items, v.mode.target) == Some(k);
    if |ps| > 1 {
      assert Valid(w);
      MoveTotalDisplacement(w, ps[1..], k);
    }
  }

  /** Moving by a delta and back restores the region. */
  lemma MoveThereAndBack(v: View, p: Point, k: nat)
    requires v.mode.Moving? && k < |v.items| && v.items[k].id == v.mode.target && Valid(v)
    ensures MoveThrough(v, [p, v.mode.last]).items == v.items
  {
    MoveTotalDisplacement(v, [p, v.mode.last], k);
    var r := MoveThrough(v, [p, v.mode.last]);
    assert r.items[k] == v.items[k];
  }

  /** A move whose region has been deleted clears the selection and moves nothing. */
  lemma MoveStale(v: View, id: nat, p: Point)
    requires Valid(v)
    ensures var w := Move(Delete(v.(mode := Moving(id, p)), id), p, p);
            w.items == Delete(v, id).items && w.mode == Idle
  {
    DeleteKeepsValid(v.(mode := Moving(id, p)), id);
  }
}

=== FILE: main_window.dfy ===
/** The Qt main window of ui/main_window.py: choosing a page, starting a
    recognition run over the drawn regions, folding each run's results
    into the table as one new row, renaming a column, and gathering the
    table's cells for export and autosave. */
module MainWindow {
  import opened Common
  import opened Geometry
  import GraphicsView
  import OcrThread
  import opened EditableTable

  /** One entry of `self.images`: the file it came from and the page image. */
  datatype LoadedImage = LoadedImage(path: string, image: Raster)

  datatype Window = Window(
    images: seq<LoadedImage>,
    current: Option<Raster>,
    fieldNames: seq<string>,
    regions: seq<Region>,
    table: Table,
    view: GraphicsView.View)

  /** The window as `_setup_data` leaves it. */
  function NewWindow(): (w: Window)
    ensures w.images == [] && w.current.None? && w.fieldNames == [] && w.regions == []
    ensures w.table == NewTable() && w.view == GraphicsView.NewView()
  {
    Window([], None, [], [], NewTable(), GraphicsView.NewView())
  }

  /** The generated name of column `i` (zero-based): `区域 i+1`. */
  function FieldName(i: nat): string {
    "区域 " + NatToString(i + 1)
  }

  /** `[f"区域 {i + 1}" for i in range(n)]`. */
  function FieldNames(n: nat): (names: seq<string>)
    ensures |names| == n
    ensures forall i :: 0 <= i < n ==> names[i] == FieldName(i)
  {
    seq(n, i requires 0 <= i < n => FieldName(i))
  }

  /** Generated field names never repeat. */
  lemma FieldNamesDistinct(n: nat)
    ensures forall i, j :: 0 <= i < j < n ==> FieldNames(n)[i] != FieldNames(n)[j]
  {
    forall i, j | 0 <= i < j < n
      ensures FieldNames(n)[i] != FieldNames(n)[j]
    {
      var a, b := NatToString(i + 1), NatToString(j + 1);
      if FieldName(i) == FieldName(j) {
        assert |"区域 "| == 3;
        assert a == FieldName(i)[3..] && b == FieldName(j)[3..];
        NatToStringInjective(i + 1, j + 1);
      }
    }
  }

  /** `load_image`: a valid list row becomes the current image and is shown
      in the editor, which drops all regions; any other row changes nothing. */
  function LoadImage(w: Window, idx: int): (r: Window)
    ensures !(0 <= idx < |w.images|) ==> r == w
    ensures 0 <= idx < |w.images| ==>
              && r.current == Some(w.images[idx].image)
              && r.view.items == []
              && r.view.pixmap == Some(GraphicsView.Pixmap(w.images[idx].image.width, w.images[idx].image.height, Point(0.0, 0.0)))
              && r == w.(current := r.current, view := r.view)
  {
    if 0 <= idx < |w.images| then
      var img := w.images[idx].image;
      w.(current := Some(img), view := GraphicsView.LoadImage(w.view, img.width, img.height))
    else w
  }

  /** Loading a page drops every drawn region, so starting a run right
      after it only warns. */
  lemma StartAfterLoadWarns(w: Window, idx: int)
    requires 0 <= idx < |w.images|
    ensures StartOcr(LoadImage(w, idx)).1.Warned?
  {
  }

  /** What `start_ocr` hands to the worker thread. */
  datatype Job = Job(regions: seq<Region>, image: Raster, names: seq<string>)

  datatype StartOutcome = Warned | Started(job: Job)

  /** `start_ocr`: without a current image or without a drawn region it
      only warns. Otherwise the field names become `区域 1..区域 n`, one per
      drawn region, and the regions are exported at the current image's
      size and handed to the worker with those names. */
  function StartOcr(w: Window): (r: (Window, StartOutcome))
    ensures r.1.Warned? <==> w.current.None? || |w.view.items| == 0
    ensures r.1.Warned? ==> r.0 == w
    ensures r.1.Started? ==>
              && |r.0.fieldNames| == |w.view.items|
              && (forall i :: 0 <= i < |r.0.fieldNames| ==> r.0.fieldNames[i] == FieldName(i))
              && r.0.regions == GraphicsView.ScaledRegions(w.view, w.current.value.width, w.current.value.height)
              && r.1.job == Job(r.0.regions, w.current.value, r.0.fieldNames)
              && r.0 == w.(fieldNames := r.0.fieldNames, regions := r.0.regions)
  {
    if w.current.None? || |w.view.items| == 0 then (w, Warned)
    else
      var img := w.current.value;
      var names := FieldNames(|w.view.items|);
      var regions := GraphicsView.ScaledRegions(w.view, img.width, img.height);
      (w.(fieldNames := names, regions := regions), Started(Job(regions, img, names)))
  }

  /** When the editor shows the current image, every exported region gets a
      field name, so the worker reports on every drawn region. */
  lemma StartedJobNamesEveryRegion(w: Window)
    requires w.current.Some? && w.current.value.width > 0 && w.current.value.height > 0
    requires w.view.pixmap.Some? && w.view.pixmap.value.width == w.current.value.width
    requires w.view.pixmap.value.height == w.current.value.height
    requires |w.view.items| > 0
    ensures var job := StartOcr(w).1.job;
            |job.regions| == |job.names| == |w.view.items|
  {
  }

  /** A row padded with empty (item-less) cells up to `n` columns. */
  function Pad(row: seq<Option<string>>, n: nat): (r: seq<Option<string>>)
    ensures |r| == if |row| < n then n else |row|
    ensures r[..|row|] == row
    ensures forall c :: |row| <= c < |r| ==> r[c].None?
  {
    if |row| < n then row + seq(n - |row|, _ => None) else row
  }

  /** `update_table`: the column count becomes the larger of the old count
      and the number of results; exactly one row is appended whose first
      cells hold the result texts in order and whose remaining cells are
      empty strings. Only when the results outnumber the old columns are the
      headers regenerated as `区域 1..n` and copied into the field names. */
  function UpdateTable(t: Table, fieldNames: seq<string>, results: seq<OcrThread.FieldText>): (r: (Table, seq<string>))
    requires WellFormed(t)
    ensures var (nt, nf) := r;
            && nt.ColumnCount() == MaxInt(t.ColumnCount(), |results|)
            && nt.ColumnCount() >= t.ColumnCount()
            && |nt.rows| == |t.rows| + 1
            && WellFormed(nt)
            && (forall i :: 0 <= i < |t.rows| ==> nt.rows[i][..|t.rows[i]|] == t.rows[i])
            && (forall i, c :: 0 <= i < |t.rows| && |t.rows[i]| <= c < |nt.rows[i]| ==> nt.rows[i][c].None?)
            && (forall c :: 0 <= c < |results| ==> nt.rows[|t.rows|][c] == Some(results[c].text))
            && (forall c :: |results| <= c < |nt.rows[|t.rows|]| ==> nt.rows[|t.rows|][c] == Some(""))
    ensures var (nt, nf) := r;
            && (|results| > t.ColumnCount() ==>
                  nt.headers == FieldNames(|results|) && nf == FieldNames(|results|))
            && (|results| <= t.ColumnCount() ==> nt.headers == t.headers && nf == fieldNames)
  {
    var current := t.ColumnCount();
    var newCols := |results|;
    var maxCols := MaxInt(current, newCols);
    var grown := seq(|t.rows|, i requires 0 <= i < |t.rows| => Pad(t.rows[i], maxCols));
    var row := seq(maxCols, c requires 0 <= c < maxCols => if c < newCols then Some(results[c].text) else Some(""));
    if newCols > current then
      (Table(FieldNames(newCols), grown + [row]), FieldNames(newCols))
    else
      (Table(t.headers, grown + [row]), fieldNames)
  }

  /** `edit_header`: a confirmed, non-empty name replaces the header of the
      double-clicked column, and the matching field name when there is one;
      a cancelled or empty entry changes nothing. */
  function EditHeader(t: Table, fieldNames: seq<string>, section: nat, newName: string, ok: bool): (r: (Table, seq<string>))
    requires section < t.ColumnCount()
    ensures !(ok && newName != "") ==> r == (t, fieldNames)
    ensures ok && newName != "" ==>
              && r.0.rows == t.rows && |r.0.headers| == |t.headers|
              && r.0.headers[section] == newName
              && (forall i :: 0 <= i < |t.headers| && i != section ==> r.0.headers[i] == t.headers[i])
              && |r.1| == |fieldNames|
              && (section < |fieldNames| ==> r.1[section] == newName)
              && (forall i :: 0 <= i < |fieldNames| && i != section ==> r.1[i] == fieldNames[i])
  {
    if ok && newName != "" then
      (t.(headers := t.headers[section := newName]),
       if section < |fieldNames| then fieldNames[section := newName] else fieldNames)
    else (t, fieldNames)
  }

  /** The text `export_table` reads from a cell: an item-less cell reads as "". */
  function CellText(t: Table, row: nat, col: nat): string
    requires row < |t.rows|
  {
    if col < |t.rows[row]| && t.rows[row][col].Some? then t.rows[row][col].value else ""
  }

  /** Renaming a column changes what an export shows in that header and
      nothing else: every cell reads as before. */
  lemma EditHeaderKeepsCells(t: Table, fieldNames: seq<string>, section: nat, newName: string, i: nat, j: nat)
    requires section < t.ColumnCount() && newName != "" && i < |t.rows|
    ensures var nt := EditHeader(t, fieldNames, section, newName, true).0;
            && nt.headers[section] == newName
            && nt.ColumnCount() == t.ColumnCount()
            && CellText(nt, i, j) == CellText(t, i, j)
  {
  }

  /** Headers and cell texts gathered for the spreadsheet writer. */
  datatype Export = Export(headers: seq<string>, data: seq<seq<string>>)

  /** The data-gathering part of `export_table`: one list of exactly
      `columnCount` texts per row, cell by cell. */
  method ExportTable(t: Table) returns (e: Export)
    ensures e.headers == t.headers
    ensures |e.data| == t.RowCount()
    ensures forall i :: 0 <= i < |e.data| ==> |e.data[i]| == t.ColumnCount()
    ensures forall i, j :: 0 <= i < |e.data| && 0 <= j < t.ColumnCount() ==> e.data[i][j] == CellText(t, i, j)
  {
    var data: seq<seq<string>> := [];
    var row := 0;
    while row < t.RowCount()
      invariant 0 <= row <= t.RowCount() && |data| == row
      invariant forall i :: 0 <= i < row ==> |data[i]| == t.ColumnCount()
      invariant forall i, j :: 0 <= i < row && 0 <= j < t.ColumnCount() ==> data[i][j] == CellText(t, i, j)
    {
      var rowData: seq<string> := [];
      var col := 0;
      while col < t.ColumnCount()
        invariant 0 <= col <= t.ColumnCount() && |rowData| == col
        invariant forall j :: 0 <= j < col ==> rowData[j] == CellText(t, row, j)
      {
        rowData := rowData + [CellText(t, row, col)];
        col := col + 1;
      }
      data := data + [rowData];
      row := row + 1;
    }
    e := Export(t.headers, data);
  }

  /** `auto_save`: an export happens only when the table has rows. */
  method AutoSave(t: Table) returns (e: Option<Export>)
    ensures t.RowCount() == 0 <==> e.None?
    ensures e.Some? ==> e.value.headers == t.headers && |e.value.data| == t.RowCount()
    ensures e.Some? ==> forall i :: 0 <= i < |e.value.data| ==> |e.value.data[i]| == t.ColumnCount()
    ensures e.Some? ==> forall i, j :: 0 <= i < |e.value.data| && 0 <= j < t.ColumnCount() ==>
              e.value.data[i][j] == CellText(t, i, j)
  {
    if t.RowCount() > 0 {
      var x := ExportTable(t);
      e := Some(x);
    } else {
      e := None;
    }
  }

  /** Table contents survive later recognition runs: after `update_table`
      every earlier cell still reads the same in an export. */
  lemma UpdateKeepsEarlierCells(t: Table, fieldNames: seq<string>, results: seq<OcrThread.FieldText>, i: nat, j: nat)
    requires WellFormed(t) && i < |t.rows| && j < t.ColumnCount()
    ensures var nt := UpdateTable(t, fieldNames, results).0;
            CellText(nt, i, j) == CellText(t, i, j)
  {
    var nt := UpdateTable(t, fieldNames, results).0;
    assert nt.rows[i][..|t.rows[i]|] == t.rows[i];
    assert nt.rows[i][j] == nt.rows[i][..|t.rows[i]|][j];
  }
}

=== FILE: ocr_thread.dfy ===
/** The recognition worker of core/ocr_thread.py: region validation, the
    integer crop box clamped into the image, and the loop that pairs each
    region with its field name. The OCR engine and the pixel crop are
    opaque functions supplied by the caller. */
module OcrThread {
  import opened Common
  import opened Geometry

  /** Text recorded for a region too small to recognise. */
  const InvalidText: string := "无效区域"
  /** Text recorded when cropping raised. */
  const CropFailedText: string := "裁剪失败"

  /** One entry of the result list: `(name, text)`. */
  datatype FieldText = FieldText(name: string, text: string)

  /** `_validate_region`: the region is at least 5 wide and 5 high (the
      source also tests `x2 > x1` and `y2 > y1`, which these imply). */
  function ValidateRegion(g: Region): (ok: bool)
    ensures ok <==> g.x2 - g.x1 >= 5.0 && g.y2 - g.y1 >= 5.0
  {
    g.x2 > g.x1 && g.y2 > g.y1 && g.x2 - g.x1 >= 5.0 && g.y2 - g.y1 >= 5.0
  }

  /** `map(int, region)`: each coordinate truncated toward zero. */
  function TruncRegion(g: Region): (b: IntBox)
    ensures b.x0 == Trunc(g.x1) && b.y0 == Trunc(g.y1) && b.x1 == Trunc(g.x2) && b.y1 == Trunc(g.y2)
  {
    IntBox(Trunc(g.x1), Trunc(g.y1), Trunc(g.x2), Trunc(g.y2))
  }

  /** The bounds check of `_crop_image`: the left/top edge is pulled into
      the image, and the right/bottom edge into the image but at least one
      pixel past the left/top edge, so the box is never empty. */
  function ClampBox(b: IntBox, w: int, h: int): (c: IntBox)
    ensures w >= 1 ==> 0 <= c.x0 <= w - 1 && c.x0 + 1 <= c.x1 <= w
    ensures h >= 1 ==> 0 <= c.y0 <= h - 1 && c.y0 + 1 <= c.y1 <= h
    ensures c.x0 < c.x1 && c.y0 < c.y1
    ensures 0 <= b.x0 < b.x1 <= w && 0 <= b.y0 < b.y1 <= h ==> c == b
  {
    var x0 := MaxInt(0, MinInt(b.x0, w - 1));
    var y0 := MaxInt(0, MinInt(b.y0, h - 1));
    var x1 := MaxInt(x0 + 1, MinInt(b.x1, w));
    var y1 := MaxInt(y0 + 1, MinInt(b.y1, h));
    IntBox(x0, y0, x1, y1)
  }

  /** The box `_crop_image` cuts out: truncate first, then clamp. */
  function CropBox(g: Region, w: int, h: int): IntBox {
    ClampBox(TruncRegion(g), w, h)
  }

  /** A valid region inside the image (as `get_scaled_regions` produces them)
      is cropped at exactly its truncated coordinates, and the crop is still
      at least 5 pixels wide and high. */
  lemma ValidRegionCropsExactly(g: Region, w: nat, h: nat)
    requires ValidateRegion(g)
    requires 0.0 <= g.x1 && g.x2 <= w as real && 0.0 <= g.y1 && g.y2 <= h as real
    ensures var c := CropBox(g, w, h);
            && c == IntBox(g.x1.Floor, g.y1.Floor, g.x2.Floor, g.y2.Floor)
            && c.x1 - c.x0 >= 5 && c.y1 - c.y0 >= 5
  {
    FloorAddWhole(g.x1, 5);
    FloorAddWhole(g.y1, 5);
    FloorMonotone(g.x1 + 5.0, g.x2);
    FloorMonotone(g.y1 + 5.0, g.y2);
    FloorMonotone(g.x2, w as real);
    FloorMonotone(g.y2, h as real);
  }

  lemma FloorAddWhole(x: real, n: int)
    ensures (x + n as real).Floor == x.Floor + n
  {
  }

  lemma FloorMonotone(x: real, y: real)
    requires x <= y
    ensures x.Floor <= y.Floor
  {
  }

  /** The text `run` records for one region: `InvalidText` for an invalid
      region; otherwise the region is cropped at `CropBox` and the crop is
      recognised unless cropping failed. */
  function RegionText(g: Region, image: Raster, crop: (Raster, IntBox) -> Option<Raster>,
                      recognize: Raster -> string): string
  {
    if !ValidateRegion(g) then InvalidText
    else
      var c := crop(image, CropBox(g, image.width, image.height));
      if c.None? then CropFailedText else recognize(c.value)
  }

  /** `run`: walks regions and field names together (Python's `zip`, which
      stops at the shorter list). An invalid region gets `InvalidText` and is
      neither cropped nor recognised; a valid one is cropped at `CropBox`,
      and the crop is recognised unless cropping failed. `cropped` lists, in
      order, the positions of the regions that were cropped. */
  method Run(regions: seq<Region>, names: seq<string>, image: Raster,
             crop: (Raster, IntBox) -> Option<Raster>, recognize: Raster -> string)
    returns (results: seq<FieldText>, cropped: seq<nat>)
    ensures |results| == MinInt(|regions|, |names|)
    ensures forall i :: 0 <= i < |results| ==> results[i].name == names[i]
    ensures forall i :: 0 <= i < |results| && !ValidateRegion(regions[i]) ==>
              results[i].text == InvalidText
    ensures forall i :: 0 <= i < |results| && ValidateRegion(regions[i]) ==>
              var c := crop(image, CropBox(regions[i], image.width, image.height));
              results[i].text == if c.None? then CropFailedText else recognize(c.value)
    ensures forall j :: 0 <= j < |cropped| ==> cropped[j] < |results| && ValidateRegion(regions[cropped[j]])
    ensures forall j, k :: 0 <= j < k < |cropped| ==> cropped[j] < cropped[k]
    ensures forall i :: 0 <= i < |results| && ValidateRegion(regions[i]) ==> i in cropped
  {
    var n := MinInt(|regions|, |names|);
    results, cropped := [], [];
    var i := 0;
    while i < n
      invariant 0 <= i <= n && |results| == i
      invariant forall j :: 0 <= j < i ==> results[j] == FieldText(names[j], RegionText(regions[j], image, crop, recognize))
      invariant forall j :: 0 <= j < |cropped| ==> cropped[j] < i && ValidateRegion(regions[cropped[j]])
      invariant forall j, k :: 0 <= j < k < |cropped| ==> cropped[j] < cropped[k]
      invariant forall j :: 0 <= j < i && ValidateRegion(regions[j]) ==> j in cropped
    {
      var region, name := regions[i], names[i];
      if !ValidateRegion(region) {
        results := results + [FieldText(name, InvalidText)];
      } else {
        cropped := cropped + [i];
        var c := crop(image, CropBox(region, image.width, image.height));
        if c.None? {
          results := results + [FieldText(name, CropFailedText)];
        } else {
          results := results + [FieldText(name, recognize(c.value))];
        }
      }
      i := i + 1;
    }
  }
}
